=== FILE: README.md ===
# Mason task core in Dafny

Mason is a SwiftUI to-do application. A task has a name, a due timestamp and
a completion flag. It appears in three overlapping lists: **today** (due on
the current calendar day), **this week** (same week-of-year and year as the
clock) and **previous** (due before now, not today, and not done). This
project models the logic behind those lists and their upkeep:

- `SwiftDataTaskService` validates and performs create, update, toggle and
  delete operations against the persistence context.
- `TaskFilterService` provides the three partition filters and the
  case-insensitive name search.
- `TaskStatisticsService.generateSummary` builds a `TaskSummary`, whose
  display texts and completion rate are modelled too.
- `TaskViewModel` holds the cached list and its partitions. Its mutations
  write through the store and then reload, and it provides the
  search-filtered views and the swipe-to-delete by row offsets.
- The home screen computes a greeting bucket, task counts and a progress
  percentage (`ModernMainView`).
- `AccessibilityLabels` builds the VoiceOver strings, and
  `AccessibilityUtils.announceSearchResults` builds the search-results announcement.

Files (one module each):

| file | module | what |
|---|---|---|
| `wrappers.dfy` | `Wrappers` | `Option`, `Result` |
| `seqs.dfy` | `Seqs` | order-preserving `Filter`, `SubsequenceOf`, counting lemmas |
| `text.dfy` | `Text` | Foundation whitespace trimming, case-insensitive `Contains`, decimal rendering and its parse-back |
| `tasks.dfy` | `Tasks` | `Task`, the calendar questions, the incomplete-first ordering |
| `store.dfy` | `Store` | the persistence context as a value: live objects, last saved contents, fresh identities, newest-first fetch |
| `task_data_service.dfy` | `TaskDataService` | the data, filter and statistics services, `TaskSummary` |
| `task_view_model.dfy` | `TaskViewModel` | the view model |
| `dashboard.dfy` | `Dashboard` | the home screen's computed values |
| `accessibility_labels.dfy` | `AccessibilityLabels` | VoiceOver labels, hints and the search announcement |

Modelling choices:

- **Clock, calendar and store outcomes are parameters.** A view model
  operation receives an `Env`. It holds the calendar (which day a timestamp
  falls on, and that day's week-of-year and year), one clock reading, and
  whether `save()` and `fetch()` succeed (`Outcome`).
- **Object identity is an `id`.** A SwiftData `Task` is a reference
  object; the model gives each task an `id` that the store hands out
  fresh. Mutating "the task" means changing every live task with that
  identity.
- **The store keeps pending changes.** A mutation changes the live objects
  at once. A successful `save()` copies them to `durable`. A failed one
  leaves them pending: nothing is rolled back, because the code has no
  rollback. So after a failed toggle, the flip is still in the live objects
  and shows at the next successful fetch.
- **The view model's cache is a value snapshot.** It is replaced on
  every refresh, and left as it was when a save or fetch fails.

## Model

| member | source | states |
|---|---|---|
| `Seqs.FilterMultiplicity` | Mason/Services/TaskDataService.swift:117-122 | Swift's `filter` keeps every copy of a qualifying element and no copy of any other |
| `Tasks.Toggled` | Mason/Services/TaskDataService.swift:61-62 | the completion flag flips and every other field is kept |
| `Tasks.NewTask` | Mason/Models/Task.swift:17-21 | a new task has the given identity, name and timestamp and is not completed |
| `Tasks.ToggledTwice` | Mason/Services/TaskDataService.swift:61-62 | toggling a task twice gives back the same task |
| `Tasks.TodayIsThisWeek` | Mason/Services/TaskDataService.swift:104-122 | a task due today passes the this-week test |
| `Tasks.SortPendingFirst` | Mason/Services/TaskDataService.swift:108 | the result is a permutation of the input, no completed task precedes an incomplete one, and each group keeps its input order |
| `Store.Insert` | Mason/Services/TaskDataService.swift:43-45 | one incomplete task with a fresh identity joins the live objects; validity (unique identities below `nextId`) is preserved |
| `Store.Mutate` | Mason/Services/TaskDataService.swift:56-57 | the change hits exactly the tasks with the given identity, position by position; the rest and the saved contents stay |
| `Store.MutateInvolution` | Mason/Services/TaskDataService.swift:61-62 | applying a self-inverse change twice restores the store |
| `Store.Remove` | Mason/Services/TaskDataService.swift:66-67 | exactly the tasks with a listed identity go; the rest stay, in order; validity is preserved |
| `Store.RemoveTwice` | Mason/Services/TaskDataService.swift:71-74 | deleting one group and then another equals deleting both at once |
| `Store.Save` | Mason/Services/TaskDataService.swift:63 | success commits the live objects; failure leaves the saved contents as they were and the live objects pending |
| `Store.SortNewestFirst` | Mason/Services/TaskDataService.swift:32-34 | a permutation of the input with timestamps non-increasing |
| `Store.FetchAll` | Mason/Services/TaskDataService.swift:31-35 | every live task exactly once (same multiset), newest first |
| `TaskDataService.Commit` | Mason/Services/TaskDataService.swift:46-47 | the call returns its value exactly when the save succeeds and otherwise throws the save's error |
| `TaskDataService.ErrorDescription` | Mason/Services/TaskDataService.swift:86-97 | a store error is described by its own message; each service error has a non-empty message |
| `TaskDataService.DataErrorsDescribedApart` | Mason/Services/TaskDataService.swift:86-97 | two service errors have the same description exactly when they are the same error |
| `TaskDataService.FetchAllTasks` | Mason/Services/TaskDataService.swift:31-36 | a failed fetch throws its error; otherwise the live tasks newest first |
| `TaskDataService.AddTask` | Mason/Services/TaskDataService.swift:38-48 | a blank name throws `invalidTaskName` and leaves the store alone; otherwise exactly one new incomplete task with the trimmed, non-empty name and the date is inserted and returned if the save succeeds |
| `TaskDataService.UpdateTask` | Mason/Services/TaskDataService.swift:50-59 | a blank name throws and changes nothing; otherwise only the named task changes, taking the trimmed name and date and keeping identity and completion; a successful save commits the change, and a failed one throws the save's error with the saved contents untouched |
| `TaskDataService.ToggleTaskCompletion` | Mason/Services/TaskDataService.swift:61-64 | only the flag of the named task flips; a successful save commits it, and a failed one throws the save's error with the saved contents untouched |
| `TaskDataService.ToggleTwiceRestores` | Mason/Services/TaskDataService.swift:61-64 | toggling the same task twice restores every live task, whatever the saves did |
| `TaskDataService.DeleteTask` | Mason/Services/TaskDataService.swift:66-69 | exactly the named task goes; the others stay in order; a successful save commits the deletion, and a failed one throws the save's error with the saved contents untouched |
| `TaskDataService.DeleteTasks` | Mason/Services/TaskDataService.swift:71-76 | deleting the tasks one at a time and then saving removes exactly the listed identities and keeps the rest in order; a successful save commits the deletions, and a failed one throws the save's error with the saved contents untouched |
| `TaskDataService.FilterTodayTasks` | Mason/Services/TaskDataService.swift:104-109 | exactly the tasks due on today's date, as a permutation of the filtered list, incomplete before completed |
| `TaskDataService.FilterWeeklyTasks` | Mason/Services/TaskDataService.swift:111-122 | exactly the tasks with today's week-of-year and year, in input order, each with every copy the input has |
| `TaskDataService.FilterPreviousIncompleteTasks` | Mason/Services/TaskDataService.swift:124-133 | exactly the incomplete tasks due before now and not today, in input order, each with every copy the input has |
| `TaskDataService.FilterTasks` | Mason/Services/TaskDataService.swift:135-140 | an empty query returns the input itself; otherwise exactly the tasks whose name contains the query ignoring case, in order, each with every copy the input has |
| `TaskDataService.TodayAndPreviousDisjoint` | Mason/Services/TaskDataService.swift:104-133 | no task is both today's and previous, so the two lists together are no longer than the input |
| `TaskDataService.TodayWithinWeekly` | Mason/Services/TaskDataService.swift:104-122 | every task of today's list is in the weekly list, which is at least as long |
| `TaskDataService.TaskSummary.TodayDisplayText` | Mason/Services/TaskDataService.swift:174-176 | the empty message exactly for a zero count; otherwise the canonical numeral (no leading zero) that reads back as the count, which `Text.NumeralRoundTrip` shows is the only one |
| `TaskDataService.TaskSummary.WeeklyDisplayText` | Mason/Services/TaskDataService.swift:178-180 | the same for the weekly count |
| `TaskDataService.TaskSummary.PreviousDisplayText` | Mason/Services/TaskDataService.swift:182-184 | the same for the previous-incomplete count |
| `TaskDataService.TaskSummary.CompletionRate` | Mason/Services/TaskDataService.swift:186-189 | 0 for no tasks; otherwise the fraction that times the total gives the completed count, within [0, 1], and 1 exactly when all are done |
| `TaskDataService.CountText` | Mason/Services/TaskDataService.swift:174-184 | the shared count rendering: the empty message exactly for zero, else the canonical numeral that parses back to the count |
| `TaskDataService.GenerateSummary` | Mason/Services/TaskDataService.swift:147-161 | each count is the size of its list: total, today's, this week's and previous, and the completed tasks of the whole list, of today's list and of this week's list; the counts obey every bound between them (today within week within total, completed within each, today plus previous within total) |
| `TaskDataService.SummaryBounds` | Mason/Services/TaskDataService.swift:148-159 | the counting facts behind those bounds |
| `TaskViewModel.CategorisedPartitions` | Mason/ViewModels/TaskViewModel.swift:99-114 | in partitioned state, today's tasks are all this week's and none of them is previous; previous tasks are incomplete, past and not today |
| `TaskViewModel.UpdateFilteredTasks` | Mason/ViewModels/TaskViewModel.swift:95-115 | each partition is exactly its tasks of `allTasks`, in `allTasks` order and with every copy; nothing else changes |
| `TaskViewModel.Initial` | Mason/ViewModels/TaskViewModel.swift:15-26 | a new view model has no store, no cached tasks in any list, empty search texts and no error |
| `TaskViewModel.InitialIsEmpty` | Mason/ViewModels/TaskViewModel.swift:15-26 | a new view model's empty partitions are up to date for any clock, refreshing it changes nothing, and every filtered view is empty |
| `TaskViewModel.Refresh` | Mason/ViewModels/TaskViewModel.swift:81-93 | no store: no change; failed fetch: only the error is recorded; otherwise `allTasks` is the live tasks newest first and the partitions are recomputed, search texts and error kept |
| `TaskViewModel.RefreshIdempotent` | Mason/ViewModels/TaskViewModel.swift:81-93 | refreshing twice equals refreshing once |
| `TaskViewModel.RefreshForgetsCache` | Mason/ViewModels/TaskViewModel.swift:84-89 | after a successful fetch the lists depend only on the store, not on what was cached |
| `TaskViewModel.Configure` | Mason/ViewModels/TaskViewModel.swift:75-78 | the store is attached and loaded: after a successful fetch the cache becomes its live tasks newest first and partitioned, with the error and search texts kept; after a failed one only the store and the error change |
| `TaskViewModel.FilteredTodayTasks` | Mason/ViewModels/TaskViewModel.swift:49-56 | today's tasks matching the search (all for an empty search), as a permutation, incomplete first |
| `TaskViewModel.FilteredWeeklyTasks` | Mason/ViewModels/TaskViewModel.swift:58-64 | the weekly list itself for an empty search, else its matching tasks in order, each with every copy the list has |
| `TaskViewModel.FilteredPreviousTasks` | Mason/ViewModels/TaskViewModel.swift:66-72 | the previous list itself for an empty search, else its matching tasks in order, each with every copy the list has |
| `TaskViewModel.FilteredTodayMatchesService` | Mason/ViewModels/TaskViewModel.swift:49-56 | with fresh partitions, the view model's filtered today list equals the filter service's today list searched by the same text (search-then-sort equals sort-then-search) |
| `TaskViewModel.FilteredWeeklyAndPreviousMatchService` | Mason/ViewModels/TaskViewModel.swift:58-72 | with fresh partitions, the filtered weekly and previous lists equal the service's lists searched by the same text |
| `TaskViewModel.SearchCommutesWithSort` | Mason/ViewModels/TaskViewModel.swift:53-55 | filtering commutes with the incomplete-first ordering |
| `TaskViewModel.Settle` | Mason/ViewModels/TaskViewModel.swift:124-131 | the do/catch of a mutation: the store keeps what the call did; on success the view model reloads, on failure it keeps cache and search texts and records the error's description (`handleError`) |
| `TaskViewModel.CommitSettles` | Mason/ViewModels/TaskViewModel.swift:124-131 | saving a change and then settling leaves the state that `Settled` describes for each outcome of the save and the fetch |
| `TaskViewModel.AddTask` | Mason/ViewModels/TaskViewModel.swift:118-132 | no store or a blank name: no change and no error; otherwise one incomplete task with the trimmed name, the date and a fresh identity joins the store, the view model settles: it holds the changed store, committed exactly when the save succeeds; a successful save and fetch reload the cache from it, newest first and partitioned, keeping the error and the search texts; a failed save, or a successful save followed by a failed fetch, keeps the cache and records that error; after a successful save and fetch the new task is in `allTasks` exactly once beside every old task |
| `TaskViewModel.AddedTaskListedOnce` | Mason/ViewModels/TaskViewModel.swift:125-128 | a fresh-identity task occurs once and shares its identity with no other task |
| `TaskViewModel.UpdateTask` | Mason/ViewModels/TaskViewModel.swift:134-148 | no store or a blank name: no change and no error; otherwise only the named task takes the trimmed name and date, keeping identity and completion, and the view model settles: it holds the changed store, committed exactly when the save succeeds; a successful save and fetch reload the cache from it, newest first and partitioned, keeping the error and the search texts; a failed save, or a successful save followed by a failed fetch, keeps the cache and records that error |
| `TaskViewModel.ToggleTaskCompletion` | Mason/ViewModels/TaskViewModel.swift:150-160 | only the named task's flag flips, and the view model settles: it holds the changed store, committed exactly when the save succeeds; a successful save and fetch reload the cache from it, newest first and partitioned, keeping the error and the search texts; a failed save, or a successful save followed by a failed fetch, keeps the cache and records that error; so after a failed save the flip stays pending in the store |
| `TaskViewModel.DeleteTask` | Mason/ViewModels/TaskViewModel.swift:162-172 | exactly the named task leaves the store, the rest stay in order, and the view model settles: it holds the changed store, committed exactly when the save succeeds; a successful save and fetch reload the cache from it, newest first and partitioned, keeping the error and the search texts; a failed save, or a successful save followed by a failed fetch, keeps the cache and records that error; after a successful save and fetch `allTasks` is exactly the remaining tasks |
| `TaskViewModel.IdsAt` | Mason/ViewModels/TaskViewModel.swift:178-185 | exactly the identities of the tasks shown at the offsets in the chosen list |
| `TaskViewModel.DeleteTasksAt` | Mason/ViewModels/TaskViewModel.swift:174-196 | exactly the tasks shown at the offsets of the chosen list leave the store, the rest stay in order, and the view model settles: it holds the changed store, committed exactly when the save succeeds; a successful save and fetch reload the cache from it, newest first and partitioned, keeping the error and the search texts; a failed save, or a successful save followed by a failed fetch, keeps the cache and records that error; after a successful save and fetch `allTasks` is exactly the remaining tasks |
| `TaskViewModel.MoveTaskToToday` | Mason/ViewModels/TaskViewModel.swift:198-208 | only the task's timestamp changes, to the move's clock reading, and the view model settles: it holds the changed store, committed exactly when the save succeeds; a successful save and fetch reload the cache from it, newest first and partitioned, keeping the error and the search texts; a failed save, or a successful save followed by a failed fetch, keeps the cache and records that error; after a successful save and fetch the task is today's and not previous when the move and the refresh fall on the same day, and every incomplete copy of it is previous when the refresh falls on a later day |
| `TaskViewModel.MovedTaskLandsToday` | Mason/ViewModels/TaskViewModel.swift:202-204 | when the move's and the refresh's clock readings fall on the same day, a fetch after the move lists the task among today's tasks and never among the previous ones |
| `TaskViewModel.MovedTaskFallsBehind` | Mason/ViewModels/TaskViewModel.swift:202-204 | when the refresh falls on a later day than the move, a fetch lists every incomplete copy of the moved task among the previous tasks |
| `TaskViewModel.UpdateTodaySearch` | Mason/ViewModels/TaskViewModel.swift:211-213 | sets today's search text and nothing else |
| `TaskViewModel.UpdateWeeklySearch` | Mason/ViewModels/TaskViewModel.swift:215-217 | sets the weekly search text and nothing else |
| `TaskViewModel.UpdatePreviousSearch` | Mason/ViewModels/TaskViewModel.swift:219-221 | sets the previous search text and nothing else |
| `TaskViewModel.ClearedSearchShowsAll` | Mason/ViewModels/TaskViewModel.swift:49-72 | with an empty search each filtered view shows its whole list (today's ordered incomplete first) |
| `TaskViewModel.ClearError` | Mason/ViewModels/TaskViewModel.swift:229-231 | forgets the error and nothing else |
| `TaskViewModel.CountCaptions` | Mason/ViewModels/TaskViewModel.swift:33-46 | each caption is its empty message exactly when its list is empty |
| `Dashboard.TimeOfDay` | Mason/Views/ModernMainView.swift:161-169 | Morning for 5..11, Afternoon for 12..16, Evening for 17..21, Night otherwise, each an if-and-only-if |
| `Dashboard.Greeting` | Mason/Views/ModernMainView.swift:26 | "Good ", then the part of the day, then "!" |
| `Dashboard.TotalTaskCount` | Mason/Views/ModernMainView.swift:171-173 | the number of tasks, which is the completed ones plus the pending ones |
| `Dashboard.CompletedTaskCount` | Mason/Views/ModernMainView.swift:175-177 | at most the total; equal to it exactly when all are done; zero exactly when none is |
| `Dashboard.ProgressPercentage` | Mason/Views/ModernMainView.swift:179-182 | 0 without tasks; otherwise the completed share in whole percent rounded down, within 0..100, and 100 exactly when all are done |
| `Dashboard.FloorPercent` | Mason/Views/ModernMainView.swift:181 | the floor of a share of a positive total lies in 0..100 and is 100 exactly for the full share |
| `Dashboard.DashboardAgreesWithSummary` | Mason/Views/ModernMainView.swift:171-182 | the home screen's counts are the summary's, and its percentage is the summary's completion rate in whole percent |
| `Dashboard.ProgressMatchesRate` | Mason/Views/ModernMainView.swift:179-182 | the percentage brackets 100 times the completion rate within one |
| `Dashboard.QuickStatsBlock` | Mason/Views/ModernMainView.swift:89-116 | the quick-stats block is shown exactly when there is a task, holding the total, the completed count and the progress percentage, which is the floor of the completed share |
| `AccessibilityLabels.TaskRowLabel` | Mason/Utils/AccessibilityManager.swift:120-127 | "Task: " and the name first, then ", scheduled for " and the date right after the name when a date is given, then the status at the end; the length leaves room for nothing else |
| `AccessibilityLabels.TaskRowLabelRevealsStatus` | Mason/Utils/AccessibilityManager.swift:125 | the label reads as completed exactly for a completed task, whatever the name and date |
| `AccessibilityLabels.TaskToggleHint` | Mason/Utils/AccessibilityManager.swift:129-131 | the "mark as incomplete" hint exactly for a completed task |
| `AccessibilityLabels.TaskNoun` | Mason/Utils/AccessibilityManager.swift:143 | singular exactly for a count of one |
| `AccessibilityLabels.SummaryCardLabel` | Mason/Utils/AccessibilityManager.swift:142-144 | title, " section, ", the count and " task", with the plural "s" exactly when the count is not one; the length leaves room for nothing else |
| `AccessibilityLabels.SearchResultsMessage` | Mason/Utils/AccessibilityManager.swift:108-111 | the "No tasks found" message exactly for zero results; otherwise the count with the right noun; both end with the quoted search term |
| `Text.Trim` | Mason/Services/TaskDataService.swift:39 | the result is the contiguous slice between the leading and trailing white space and newlines; it is empty exactly for a blank input and otherwise starts and ends with a non-blank character |
| `Text.TrimIdempotent` | Mason/Services/TaskDataService.swift:39 | trimming twice equals trimming once |
| `Text.Contains` | Mason/Services/TaskDataService.swift:138 | true exactly when the query occurs at some position of the text |
| `Text.ContainsIgnoringCase` | Mason/Services/TaskDataService.swift:138 | true exactly when the query is non-empty and, lower-cased, occurs at some position of the lower-cased text; an empty query matches nothing, as in Foundation |
| `Text.ContainsIgnoresQueryCase` | Mason/Services/TaskDataService.swift:138 | case-insensitive matching does not depend on the query's letter case |
| `Text.IntToString` | Mason/Services/TaskDataService.swift:175 | the decimal rendering of an `Int`: a canonical numeral (no leading zero, no "-0"), with a minus sign exactly for a negative number, that parses back to the number |
| `Text.NumeralRoundTrip` | Mason/Services/TaskDataService.swift:175 | every canonical numeral is the rendering of the number it reads as, so each number has exactly one canonical numeral |

## Left out

- SwiftUI views, layout, animations and haptics are left out: they do not change the task data.
- The `announce` function and posting through `UIAccessibility` are left out. Only the announcement text is modelled (`SearchResultsMessage`).
- The internals of SwiftData (`ModelContext`, `FetchDescriptor`) are replaced by the `Store.Context` value.
- Real calendar arithmetic is left out. The calendar is a parameter that maps a timestamp to a day and a day to its week-of-year and year. The weekly filter compares `.weekOfYear` with `.year`, not with `.yearForWeekOfYear`. With an abstract calendar the model keeps that comparison as written, so a week that straddles New Year is split exactly as in the code. No concrete calendar is modelled to show it.
- Dates are integer timestamps. A refresh reads the clock once (`Env.now`) for all three partitions, while the code reads `Date.now` and the current date again inside each filter. `moveTaskToToday` reads the clock separately from its refresh, and the model does keep that reading separate (`movedAt`).
- Dashboard.ProgressPercentage: computes the exact floor of 100·completed/total. The code computes `Int((Double(c) / Double(t)) * 100)` in binary floating point, which can land one below the exact value (for example 57 of 100 gives 56.99999… and so 56). Floating point is not modelled.
- TaskDataService.TaskSummary.CompletionRate: is an exact rational (`real`), not a `Double`, for the same reason.
- Text.ContainsIgnoringCase: folds only ASCII letters. `localizedCaseInsensitiveContains` uses the user's locale and full Unicode case folding, and may match diacritics differently; that is not modelled.
- Swift strings count grapheme clusters; the model's strings are sequences of Unicode scalars.
- The sort in `filterTodayTasks` and `filteredTodayTasks` uses Swift's `sorted(by:)`, which is not guaranteed stable. The model fixes one valid outcome, a stable partition, and `SortPendingFirst` also promises that each group keeps its input order, which Swift does not. That stability, and the equalities `FilteredTodayMatchesService` and `SearchCommutesWithSort` draw from it, hold of the model's chosen outcome. For Swift's sort, the two today lists agree only as the same multiset with incomplete tasks first.
- The fetch's order among tasks with equal timestamps is unspecified in SwiftData. The model uses an insertion sort, and its contract promises only newest-first and a permutation.
- Reference aliasing between the cached `Task` objects and the context's objects is left out. In the code, a mutation that fails to save is visible at once in the cached arrays because they hold the same objects. In the model the cache is a snapshot and shows the change at the next successful refresh.
- `isLoading` is declared in the view model but never set, so it is left out.
- `TaskDataError.taskNotFound`, `.saveFailure` and `.fetchFailure` are never thrown by the code. They exist only as cases with their descriptions (`ErrorDescription`).
- The `print` in `handleError` is left out; only the recorded `errorMessage` is modelled.
- `Item.swift` is an unused template model and is not part of this model.
- The constant hint and label strings (`taskEditHint`, `searchBarLabel`, …) are modelled as constants without contracts.
- `deleteTasks(at:from:)` with an offset past the end of the filtered list traps in Swift. `DeleteTasksAt` therefore requires in-range offsets.

Three behaviours of the code worth knowing:

- A failed save after a toggle, or after any other mutation, does not roll the mutation back. It stays pending in the context.
- The view model's `addTask` and `updateTask` return silently on a blank name. They record no error, unlike the service's `invalidTaskName`.
- The view model's `todayTasks` is not sorted. The incomplete-first ordering happens in `filteredTodayTasks` and in `TaskFilterService.filterTodayTasks`.

=== FILE: accessibility_labels.dfy ===
/**
 The VoiceOver strings of `AccessibilityLabels` and the search-results
 announcement.
 */
module AccessibilityLabels {
  import opened Wrappers
  import opened Text

  predicate StartsWith(s: string, prefix: string)
  {
    |prefix| <= |s| && s[..|prefix|] == prefix
  }

  predicate EndsWith(s: string, suffix: string)
  {
    |suffix| <= |s| && s[|s| - |suffix|..] == suffix
  }

  /** The status part closing a task row's label. */
  function StatusSuffix(isCompleted: bool): string
  {
    if isCompleted then ", completed" else ", pending"
  }

  /** `taskRowLabel(taskName:isCompleted:date:)`: "Task: " and the name,
      then ", scheduled for " and the date right after the name when a date
      is given (and nothing else between name and status when it is not),
      then the status. */
  function TaskRowLabel(taskName: string, isCompleted: bool, date: Option<string>): (r: string)
    ensures StartsWith(r, "Task: " + taskName)
    ensures date.Some? ==> StartsWith(r[6 + |taskName|..], ", scheduled for " + date.value)
    ensures date.None? ==> r[6 + |taskName|..] == StatusSuffix(isCompleted)
    ensures EndsWith(r, StatusSuffix(isCompleted))
    ensures |r| == 6 + |taskName| + (if date.Some? then 16 + |date.value| else 0) + |StatusSuffix(isCompleted)|
  {
    var named := "Task: " + taskName;
    var scheduled := if date.Some? then named + ", scheduled for " + date.value else named;
    scheduled + StatusSuffix(isCompleted)
  }

  /** Reads the completion state back off a task row label. */
  predicate LabelSaysCompleted(text: string)
  {
    EndsWith(text, ", completed")
  }

  /** Whatever the name and date, a task row label tells completed and
      pending tasks apart. */
  lemma TaskRowLabelRevealsStatus(taskName: string, isCompleted: bool, date: Option<string>)
    ensures LabelSaysCompleted(TaskRowLabel(taskName, isCompleted, date)) == isCompleted
  {
    var r := TaskRowLabel(taskName, isCompleted, date);
    if !isCompleted {
      assert r[|r| - 1] == 'g';
      assert ", completed"[10] == 'd';
    }
  }

  /** `taskToggleHint(isCompleted:)`: the "mark as incomplete" hint exactly
      for a completed task. */
  function TaskToggleHint(isCompleted: bool): (r: string)
    ensures r == "Double tap to mark as incomplete" <==> isCompleted
    ensures r == "Double tap to mark as complete" <==> !isCompleted
  {
    if isCompleted then "Double tap to mark as incomplete" else "Double tap to mark as complete"
  }

  const TaskEditHint := "Double tap to edit task details"
  const TaskDeleteHint := "Swipe up with one finger to delete task"
  const SummaryCardHint := "Double tap to view tasks in this section"
  const SearchBarLabel := "Search tasks"
  const SearchBarHint := "Type to filter tasks by name"
  const AddTaskButtonLabel := "Add new task"
  const AddTaskButtonHint := "Double tap to create a new task"

  /** `task\(count == 1 ? "" : "s")`: singular exactly for one. */
  function TaskNoun(count: int): (r: string)
    ensures r == "task" <==> count == 1
    ensures r == "tasks" <==> count != 1
  {
    if count == 1 then "task" else "tasks"
  }

  /** `summaryCardLabel(title:count:)`: "<title> section, <count> task",
      ending in "s" exactly when the count is not one. */
  function SummaryCardLabel(title: string, count: int): (r: string)
    ensures StartsWith(r, title + " section, " + IntToString(count) + " task")
    ensures r[|r| - 1] == 's' <==> count != 1
    ensures |r| == |title| + 10 + |IntToString(count)| + 5 + (if count == 1 then 0 else 1)
  {
    title + " section, " + IntToString(count) + " " + TaskNoun(count)
  }

  /** The announcement of `announceSearchResults(count:searchTerm:)`: the
      "No tasks found" message exactly for a zero count; otherwise the count
      and the noun, plural exactly when the count is not one. Both quote the
      search term at the end. */
  function SearchResultsMessage(count: int, searchTerm: string): (r: string)
    ensures StartsWith(r, "No tasks found for '") <==> count == 0
    ensures count == 0 ==> r == "No tasks found for '" + searchTerm + "'"
    ensures count != 0 ==> r == "Found " + IntToString(count) + " " + TaskNoun(count) + " for '" + searchTerm + "'"
    ensures EndsWith(r, "'" + searchTerm + "'")
  {
    if count == 0 then
      var r := "No tasks found for '" + searchTerm + "'";
      EndsWithQuoted("No tasks found for ", searchTerm);
      assert r == "No tasks found for " + "'" + searchTerm + "'";
      r
    else
      var head := "Found " + IntToString(count) + " " + TaskNoun(count) + " for ";
      var r := head + "'" + searchTerm + "'";
      EndsWithQuoted(head, searchTerm);
      assert r[0] == 'F';
      r
  }

  /** A message closing with a quoted term ends with that quoted term. */
  lemma EndsWithQuoted(head: string, term: string)
    ensures EndsWith(head + "'" + term + "'", "'" + term + "'")
  {
    var r := head + "'" + term + "'";
    assert r == head + ("'" + term + "'");
    assert r[|r| - |term| - 2..] == "'" + term + "'";
  }
}

=== FILE: dashboard.dfy ===
/**
 The home screen's computed values (`ModernMainView`): the greeting bucket
 for the hour of day and the quick-stats counts.
 */
module Dashboard {
  import opened Wrappers
  import opened Seqs
  import opened Tasks
  import Service = TaskDataService

  /** `timeOfDay`: which part of the day an hour falls in; every hour lands
      in exactly one bucket, and everything outside 5..21 is night. */
  function TimeOfDay(hour: int): (r: string)
    ensures r == "Morning" <==> 5 <= hour < 12
    ensures r == "Afternoon" <==> 12 <= hour < 17
    ensures r == "Evening" <==> 17 <= hour < 22
    ensures r == "Night" <==> hour < 5 || 22 <= hour
  {
    if 5 <= hour < 12 then "Morning"
    else if 12 <= hour < 17 then "Afternoon"
    else if 17 <= hour < 22 then "Evening"
    else "Night"
  }

  /** The header text `Good \(timeOfDay)!`: the part of the day framed by
      "Good " and "!". */
  function Greeting(hour: int): (r: string)
    ensures |r| == |TimeOfDay(hour)| + 6
    ensures r[..5] == "Good " && r[|r| - 1] == '!'
    ensures r[5..|r| - 1] == TimeOfDay(hour)
  {
    "Good " + TimeOfDay(hour) + "!"
  }

  /** `totalTaskCount`: every task is either completed or pending, so the
      total is the sum of the two groups. */
  function TotalTaskCount(allTasks: seq<Task>): (n: nat)
    ensures n == |Filter(allTasks, IsCompleted)| + |Filter(allTasks, IsPending)|
  {
    FilterSplitMultiset(allTasks, IsCompleted, IsPending);
    assert |multiset(allTasks)| == |allTasks|;
    |allTasks|
  }

  /** `completedTaskCount`: how many tasks are done; never more than the
      total, equal to it exactly when every task is done, and zero exactly
      when none is. */
  function CompletedTaskCount(allTasks: seq<Task>): (n: nat)
    ensures n <= TotalTaskCount(allTasks)
    ensures n == TotalTaskCount(allTasks) <==> forall t :: t in allTasks ==> t.completed
    ensures n == 0 <==> forall t :: t in allTasks ==> !t.completed
  {
    FilterFullLength(allTasks, IsCompleted);
    var done := Filter(allTasks, IsCompleted);
    assert done != [] ==> done[0] in done;
    |done|
  }

  /** `progressPercentage`: 0 without tasks; otherwise the completed share
      in whole percent, rounded down, so within 0..100 and 100 exactly when
      every task is done. */
  function ProgressPercentage(allTasks: seq<Task>): (p: int)
    ensures allTasks == [] ==> p == 0
    ensures 0 <= p <= 100
    ensures allTasks != [] ==>
      p * TotalTaskCount(allTasks) <= 100 * CompletedTaskCount(allTasks) < (p + 1) * TotalTaskCount(allTasks)
    ensures allTasks != [] ==> (p == 100 <==> forall t :: t in allTasks ==> t.completed)
  {
    var total := TotalTaskCount(allTasks);
    if total > 0 then
      var done := CompletedTaskCount(allTasks);
      FloorPercent(done, total);
      (done * 100) / total
    else 0
  }

  /** Whole-percent share of `done` out of `total`, rounded down. */
  lemma FloorPercent(done: nat, total: nat)
    requires 0 < total && done <= total
    ensures var p := (done * 100) / total;
      && 0 <= p <= 100
      && p * total <= 100 * done < (p + 1) * total
      && (p == 100 <==> done == total)
  {
    var p := (done * 100) / total;
    assert p * total <= 100 * done < (p + 1) * total;
    MulCancel(p, 100, total);
    MulCancel(total, done, 100);
    MulCancelStrict(100, p + 1, total);
  }

  /** Cancelling a positive factor keeps a non-strict order. */
  lemma MulCancel(a: int, b: int, c: int)
    requires c > 0
    ensures a * c <= b * c ==> a <= b
  {
  }

  /** Cancelling a positive factor keeps a strict order. */
  lemma MulCancelStrict(a: int, b: int, c: int)
    requires c > 0
    ensures a * c < b * c ==> a < b
  {
  }

  /** The home screen agrees with the statistics service: its total and
      completed counts are the summary's, and its percentage is the
      summary's completion rate in whole percent, rounded down. */
  lemma DashboardAgreesWithSummary(allTasks: seq<Task>, cal: Calendar, now: Timestamp)
    ensures var summary := Service.GenerateSummary(allTasks, cal, now);
      && TotalTaskCount(allTasks) == summary.totalCount
      && CompletedTaskCount(allTasks) == summary.totalCompleted
      && ProgressPercentage(allTasks) as real <= 100.0 * summary.CompletionRate()
         < ProgressPercentage(allTasks) as real + 1.0
  {
    var summary := Service.GenerateSummary(allTasks, cal, now);
    ProgressMatchesRate(allTasks, summary);
  }

  lemma ProgressMatchesRate(allTasks: seq<Task>, summary: Service.TaskSummary)
    requires summary.totalCount == TotalTaskCount(allTasks)
    requires summary.totalCompleted == CompletedTaskCount(allTasks)
    ensures ProgressPercentage(allTasks) as real <= 100.0 * summary.CompletionRate()
      < ProgressPercentage(allTasks) as real + 1.0
  {
    var total := TotalTaskCount(allTasks);
    var p := ProgressPercentage(allTasks);
    var rate := summary.CompletionRate();
    if total > 0 {
      var done := CompletedTaskCount(allTasks);
      assert p * total <= 100 * done < (p + 1) * total;
      assert rate == summary.totalCompleted as real / summary.totalCount as real;
      RateTimesTotal(done, total, rate);
      PercentOfRate(p, done, total, rate);
    } else {
      assert p == 0 && rate == 0.0;
    }
  }

  /** Moving the integer bounds of `p` to the rate `done / total`. */
  lemma PercentOfRate(p: int, done: nat, total: nat, rate: real)
    requires 0 < total && p * total <= 100 * done < (p + 1) * total
    requires rate * total as real == done as real
    ensures p as real <= 100.0 * rate < p as real + 1.0
  {
    var t := total as real;
    CastProduct(p, total);
    CastProduct(100, done);
    CastProduct(p + 1, total);
    var x := 100.0 * rate;
    assert 100.0 * (rate * t) == x * t;
    CancelPositive(p as real, x, t);
    CancelPositive(x, p as real + 1.0, t);
  }

  lemma RateTimesTotal(done: nat, total: nat, rate: real)
    requires total > 0 && rate == done as real / total as real
    ensures rate * total as real == done as real
  {
  }

  lemma CastProduct(a: int, b: int)
    ensures (a * b) as real == a as real * b as real
  {
  }

  lemma CancelPositive(a: real, b: real, t: real)
    requires t > 0.0
    ensures a * t <= b * t ==> a <= b
    ensures a * t < b * t ==> a < b
  {
    assert (b - a) * t == b * t - a * t;
  }

  /** The three values of the quick-stats block. */
  datatype QuickStats = QuickStats(total: nat, completed: nat, progress: int)

  /** The quick-stats block, shown only when there is at least one task. */
  function QuickStatsBlock(allTasks: seq<Task>): (r: Option<QuickStats>)
    ensures r.Some? <==> |allTasks| > 0
    ensures r.Some? ==> r.value.completed <= r.value.total == |allTasks| && 0 <= r.value.progress <= 100
    ensures r.Some? ==> r.value.completed == CompletedTaskCount(allTasks) && r.value.progress == ProgressPercentage(allTasks)
    ensures r.Some? ==>
      r.value.progress * r.value.total <= 100 * r.value.completed < (r.value.progress + 1) * r.value.total
  {
    if TotalTaskCount(allTasks) > 0 then
      Some(QuickStats(TotalTaskCount(allTasks), CompletedTaskCount(allTasks), ProgressPercentage(allTasks)))
    else None
  }
}

=== FILE: seqs.dfy ===
/**
 Order-preserving filtering over sequences, the one operation every task
 partition, search and count in the application is built from.
 */
module Seqs {

  /** `a` can be obtained from `b` by deleting elements, keeping the order
      (greedy leftmost matching). */
  predicate SubsequenceOf<T(==,!new)>(a: seq<T>, b: seq<T>)
    decreases |b|
  {
    if |a| == 0 then true
    else if |b| == 0 then false
    else if a[0] == b[0] then SubsequenceOf(a[1..], b[1..])
    else SubsequenceOf(a, b[1..])
  }

  /** Every sequence is a subsequence of itself. */
  lemma {:induction false} SubsequenceOfSelf<T(!new)>(s: seq<T>)
    ensures SubsequenceOf(s, s)
  {
    if |s| > 0 {
      SubsequenceOfSelf(s[1..]);
    }
  }

  /** The elements of `s` that satisfy `p`, in their original order
      (Swift's `Array.filter`). */
  function Filter<T(==,!new)>(s: seq<T>, p: T -> bool): (r: seq<T>)
    ensures |r| <= |s|
    ensures forall x :: x in r <==> x in s && p(x)
    ensures SubsequenceOf(r, s)
  {
    if |s| == 0 then []
    else if p(s[0]) then [s[0]] + Filter(s[1..], p)
    else Filter(s[1..], p)
  }

  /** Filtering keeps every copy of a qualifying element and no copy of
      any other, so with `SubsequenceOf` it determines the result. */
  lemma {:induction false} FilterMultiplicity<T(!new)>(s: seq<T>, p: T -> bool)
    ensures forall x :: multiset(Filter(s, p))[x] == if p(x) then multiset(s)[x] else 0
  {
    if |s| > 0 {
      FilterMultiplicity(s[1..], p);
      assert s == [s[0]] + s[1..];
    }
  }

  /** Filtering keeps everything when every element qualifies. */
  lemma {:induction false} FilterKeepsAll<T(!new)>(s: seq<T>, p: T -> bool)
    requires forall x :: x in s ==> p(x)
    ensures Filter(s, p) == s
  {
    if |s| > 0 {
      FilterKeepsAll(s[1..], p);
    }
  }

  /** Filtering keeps nothing when no element qualifies. */
  lemma FilterKeepsNone<T(!new)>(s: seq<T>, p: T -> bool)
    requires forall x :: x in s ==> !p(x)
    ensures Filter(s, p) == []
  {
  }

  /** Filtering distributes over concatenation. */
  lemma {:induction false} FilterAppend<T(!new)>(a: seq<T>, b: seq<T>, p: T -> bool)
    ensures Filter(a + b, p) == Filter(a, p) + Filter(b, p)
  {
    if |a| == 0 {
      assert a + b == b;
    } else {
      assert (a + b)[0] == a[0];
      assert (a + b)[1..] == a[1..] + b;
      FilterAppend(a[1..], b, p);
    }
  }

  /** Two filters may be applied in either order. */
  lemma {:induction false} FilterCommutes<T(!new)>(s: seq<T>, p: T -> bool, q: T -> bool)
    ensures Filter(Filter(s, p), q) == Filter(Filter(s, q), p)
  {
    if |s| > 0 {
      FilterCommutes(s[1..], p, q);
    }
  }

  /** Splitting a sequence by a predicate and its complement loses and
      duplicates nothing. */
  lemma {:induction false} FilterSplitMultiset<T(!new)>(s: seq<T>, p: T -> bool, q: T -> bool)
    requires forall x :: p(x) != q(x)
    ensures multiset(Filter(s, p)) + multiset(Filter(s, q)) == multiset(s)
  {
    if |s| > 0 {
      FilterSplitMultiset(s[1..], p, q);
      assert s == [s[0]] + s[1..];
    }
  }

  /** Two predicates no element satisfies together select at most |s|
      elements between them. */
  lemma {:induction false} FilterDisjointCount<T(!new)>(s: seq<T>, p: T -> bool, q: T -> bool)
    requires forall x :: !(p(x) && q(x))
    ensures |Filter(s, p)| + |Filter(s, q)| <= |s|
  {
    if |s| > 0 {
      FilterDisjointCount(s[1..], p, q);
    }
  }

  /** Filtering keeps the whole length exactly when every element
      qualifies. */
  lemma {:induction false} FilterFullLength<T(!new)>(s: seq<T>, p: T -> bool)
    ensures |Filter(s, p)| == |s| <==> forall x :: x in s ==> p(x)
  {
    if |s| > 0 {
      FilterFullLength(s[1..], p);
      assert forall x :: x in s ==> x == s[0] || x in s[1..];
    }
  }

  /** A weaker predicate selects at least as many elements. */
  lemma {:induction false} FilterWeakerCount<T(!new)>(s: seq<T>, p: T -> bool, q: T -> bool)
    requires forall x :: p(x) ==> q(x)
    ensures |Filter(s, p)| <= |Filter(s, q)|
  {
    if |s| > 0 {
      FilterWeakerCount(s[1..], p, q);
    }
  }

  /** Filtering first by `p` cannot select more `q`-elements than there are. */
  lemma FilterNestedCount<T(!new)>(s: seq<T>, p: T -> bool, q: T -> bool)
    ensures |Filter(Filter(s, p), q)| <= |Filter(s, q)|
  {
    FilterCommutes(s, p, q);
  }
}

=== FILE: store.dfy ===
/**
 The persistence collaborator (SwiftData's `ModelContext`) as a value: the
 live objects a fetch sees, the contents as of the last successful save, and
 the next fresh object identity. A mutation changes the live objects at
 once; `save()` either commits them or fails and leaves them pending.
 */
module Store {
  import opened Seqs
  import opened Tasks

  /** How a `save()` or `fetch()` call went; a failure carries the
      `localizedDescription` of the error it threw. */
  datatype Outcome = Succeeded | Failed(message: string)

  datatype Context = Context(live: seq<Task>, durable: seq<Task>, nextId: nat)

  /** No two live tasks share an identity. */
  predicate UniqueIds(s: seq<Task>)
  {
    forall i, j :: 0 <= i < j < |s| ==> s[i].id != s[j].id
  }

  /** Identities are unique and every identity in use is below `nextId`. */
  predicate Valid(ctx: Context)
  {
    && UniqueIds(ctx.live)
    && (forall t :: t in ctx.live ==> t.id < ctx.nextId)
  }

  /** The live task with identity `id`, if any. */
  predicate HasTask(ctx: Context, id: nat)
  {
    exists t :: t in ctx.live && t.id == id
  }

  // ---------------------------------------------------------------------
  // insert / mutate / delete, then save
  // ---------------------------------------------------------------------

  /** `modelContext.insert(Task(timestamp:taskName:))`: one new, incomplete
      task with a fresh identity joins the live objects. */
  function Insert(ctx: Context, name: string, timestamp: Timestamp): (r: Context)
    ensures multiset(r.live) == multiset(ctx.live) + multiset{NewTask(ctx.nextId, name, timestamp)}
    ensures r.durable == ctx.durable && r.nextId == ctx.nextId + 1
    ensures Valid(ctx) ==> Valid(r) && !HasTask(ctx, ctx.nextId)
  {
    var t := NewTask(ctx.nextId, name, timestamp);
    ctx.(live := ctx.live + [t], nextId := ctx.nextId + 1)
  }

  /** Applies `f` to every live task whose identity is `id` (an in-place
      mutation of the object), leaving every other task and the order
      alone. */
  function Mutate(ctx: Context, id: nat, f: Task -> Task): (r: Context)
    requires forall t :: f(t).id == t.id
    ensures |r.live| == |ctx.live|
    ensures forall i :: 0 <= i < |ctx.live| && ctx.live[i].id != id ==> r.live[i] == ctx.live[i]
    ensures forall i :: 0 <= i < |ctx.live| && ctx.live[i].id == id ==> r.live[i] == f(ctx.live[i])
    ensures r.durable == ctx.durable && r.nextId == ctx.nextId
    ensures Valid(ctx) ==> Valid(r)
  {
    var live := seq(|ctx.live|, i requires 0 <= i < |ctx.live| =>
      if ctx.live[i].id == id then f(ctx.live[i]) else ctx.live[i]);
    assert forall t :: t in live ==> exists i :: 0 <= i < |ctx.live| && t.id == ctx.live[i].id;
    ctx.(live := live)
  }

  /** A mutation applied twice is undone when `f` is its own inverse. */
  lemma MutateInvolution(ctx: Context, id: nat, f: Task -> Task)
    requires forall t :: f(t).id == t.id
    requires forall t :: f(f(t)) == t
    ensures Mutate(Mutate(ctx, id, f), id, f) == ctx
  {
    var r := Mutate(Mutate(ctx, id, f), id, f);
    assert r.live == ctx.live;
  }

  /** The predicate "identity not in `ids`". */
  function OutsideP(ids: set<nat>): Task -> bool
  {
    (t: Task) => t.id !in ids
  }

  /** `modelContext.delete` of every task whose identity is in `ids`. */
  function Remove(ctx: Context, ids: set<nat>): (r: Context)
    ensures forall t :: t in r.live <==> t in ctx.live && t.id !in ids
    ensures SubsequenceOf(r.live, ctx.live)
    ensures r.durable == ctx.durable && r.nextId == ctx.nextId
    ensures Valid(ctx) ==> Valid(r)
  {
    var live := Filter(ctx.live, OutsideP(ids));
    assert Valid(ctx) ==> UniqueIds(live) by {
      if Valid(ctx) {
        SubsequenceKeepsUniqueIds(live, ctx.live);
      }
    }
    ctx.(live := live)
  }

  /** Deleting one group of identities and then another deletes both. */
  lemma {:induction false} RemoveTwice(s: seq<Task>, a: set<nat>, b: set<nat>)
    ensures Filter(Filter(s, OutsideP(a)), OutsideP(b)) == Filter(s, OutsideP(a + b))
  {
    if |s| > 0 {
      RemoveTwice(s[1..], a, b);
    }
  }

  /** A subsequence of a sequence without repeated identities has none
      either. */
  lemma {:induction false} SubsequenceKeepsUniqueIds(a: seq<Task>, b: seq<Task>)
    requires SubsequenceOf(a, b) && UniqueIds(b)
    ensures UniqueIds(a)
    decreases |b|
  {
    if |a| > 0 && |b| > 0 {
      if a[0] == b[0] {
        SubsequenceKeepsUniqueIds(a[1..], b[1..]);
        SubsequenceMembers(a[1..], b[1..]);
        forall j | 0 < j < |a|
          ensures a[0].id != a[j].id
        {
          assert a[1..][j - 1] in b[1..];
        }
        forall i, j | 0 <= i < j < |a|
          ensures a[i].id != a[j].id
        {
          if i > 0 {
            assert a[i] == a[1..][i - 1] && a[j] == a[1..][j - 1];
          }
        }
      } else {
        SubsequenceKeepsUniqueIds(a, b[1..]);
      }
    }
  }

  /** Every element of a subsequence is an element of the whole. */
  lemma {:induction false} SubsequenceMembers<T(!new)>(a: seq<T>, b: seq<T>)
    requires SubsequenceOf(a, b)
    ensures forall x :: x in a ==> x in b
    decreases |b|
  {
    if |a| > 0 && |b| > 0 {
      if a[0] == b[0] {
        SubsequenceMembers(a[1..], b[1..]);
        assert forall x :: x in a ==> x == a[0] || x in a[1..];
      } else {
        SubsequenceMembers(a, b[1..]);
      }
    }
  }

  /** `modelContext.save()`: commits the live objects, or fails and leaves
      them pending (nothing is rolled back). */
  function Save(ctx: Context, outcome: Outcome): (r: Context)
    ensures r.live == ctx.live && r.nextId == ctx.nextId
    ensures outcome.Succeeded? ==> r.durable == ctx.live
    ensures outcome.Failed? ==> r.durable == ctx.durable
  {
    if outcome.Succeeded? then ctx.(durable := ctx.live) else ctx
  }

  // ---------------------------------------------------------------------
  // fetch, sorted by timestamp descending
  // ---------------------------------------------------------------------

  /** Later timestamps first. */
  predicate NewestFirst(s: seq<Task>)
  {
    forall i, j :: 0 <= i < j < |s| ==> s[i].timestamp >= s[j].timestamp
  }

  function InsertNewestFirst(t: Task, s: seq<Task>): (r: seq<Task>)
    requires NewestFirst(s)
    ensures NewestFirst(r)
    ensures multiset(r) == multiset(s) + multiset{t}
  {
    if |s| == 0 || t.timestamp >= s[0].timestamp then [t] + s
    else
      var rest := InsertNewestFirst(t, s[1..]);
      HeadBoundsRest(t, s, rest);
      assert s == [s[0]] + s[1..];
      [s[0]] + rest
  }

  /** The head of a newest-first sequence is no older than anything the
      insertion of an older task into its tail produces. */
  lemma HeadBoundsRest(t: Task, s: seq<Task>, rest: seq<Task>)
    requires NewestFirst(s) && |s| > 0 && t.timestamp < s[0].timestamp
    requires NewestFirst(rest) && multiset(rest) == multiset(s[1..]) + multiset{t}
    ensures NewestFirst([s[0]] + rest)
  {
    forall x | x in rest
      ensures x.timestamp <= s[0].timestamp
    {
      assert x in multiset(rest);
      if x != t {
        assert x in multiset(s[1..]);
      }
    }
    var r := [s[0]] + rest;
    forall i, j | 0 <= i < j < |r|
      ensures r[i].timestamp >= r[j].timestamp
    {
      assert r[j] == rest[j - 1];
      if i > 0 {
        assert r[i] == rest[i - 1];
      } else {
        assert r[j] in rest;
      }
    }
  }

  /** The tasks of `s` ordered newest first (`SortDescriptor(\.timestamp,
      order: .reverse)`). */
  function SortNewestFirst(s: seq<Task>): (r: seq<Task>)
    ensures NewestFirst(r)
    ensures multiset(r) == multiset(s)
  {
    if |s| == 0 then []
    else
      assert s == [s[0]] + s[1..];
      InsertNewestFirst(s[0], SortNewestFirst(s[1..]))
  }

  /** `modelContext.fetch(FetchDescriptor<Task>(sortBy: timestamp, reverse))`:
      every live task exactly once, newest first. */
  function FetchAll(ctx: Context): (r: seq<Task>)
    ensures NewestFirst(r)
    ensures multiset(r) == multiset(ctx.live)
    ensures forall t :: t in r <==> t in ctx.live
  {
    var r := SortNewestFirst(ctx.live);
    assert forall t :: t in r <==> t in multiset(r);
    assert forall t :: t in ctx.live <==> t in multiset(ctx.live);
    r
  }
}

=== FILE: task_data_service.dfy ===
/**
 `SwiftDataTaskService` (validated create / update / toggle / delete over the
 store), `TaskFilterService` (the today, this-week, previous-incomplete and
 search filters), `TaskStatisticsService.generateSummary` and `TaskSummary`.
 */
module TaskDataService {
  import opened Wrappers
  import opened Text
  import opened Seqs
  import opened Tasks
  import opened Store

  /** The service's own error cases (`TaskDataError`). */
  datatype TaskDataError = InvalidTaskName | TaskNotFound | SaveFailure | FetchFailure

  /** What a service call can throw: one of its own errors, or whatever the
      store threw (carried as its description). */
  datatype Thrown = Data(error: TaskDataError) | Storage(message: string)

  /** `error.localizedDescription`: a store error carries its own text,
      and each of the service's errors has a non-empty message of its own. */
  function ErrorDescription(e: Thrown): (r: string)
    ensures e.Storage? ==> r == e.message
    ensures e.Data? ==> |r| > 0
  {
    match e
    case Data(InvalidTaskName) => "Task name cannot be empty"
    case Data(TaskNotFound) => "Task not found"
    case Data(SaveFailure) => "Failed to save task"
    case Data(FetchFailure) => "Failed to fetch tasks"
    case Storage(m) => m
  }

  /** Different service errors are described differently, so the recorded
      message tells which one was thrown. */
  lemma DataErrorsDescribedApart(a: TaskDataError, b: TaskDataError)
    ensures ErrorDescription(Data(a)) == ErrorDescription(Data(b)) <==> a == b
  {
    var da, db := ErrorDescription(Data(a)), ErrorDescription(Data(b));
    if a != b {
      assert da[0] != db[0] || da[5] != db[5] || |da| != |db|;
    }
  }

  /** The store after a service call, and what the call returned or threw.
      A call that throws after mutating the store leaves the mutation in the
      live objects, as `ModelContext` does. */
  datatype Step<T> = Step(ctx: Context, result: Result<T, Thrown>)

  /** The result of `try modelContext.save()` followed by `return value`. */
  function Commit<T>(ctx: Context, save: Outcome, value: T): (r: Step<T>)
    ensures r.ctx == Save(ctx, save)
    ensures save.Succeeded? <==> r.result == Ok(value)
    ensures save.Failed? ==> r.result == Err(Storage(save.message))
  {
    match save
    case Succeeded => Step(Save(ctx, save), Ok(value))
    case Failed(m) => Step(Save(ctx, save), Err(Storage(m)))
  }

  // ---------------------------------------------------------------------
  // SwiftDataTaskService
  // ---------------------------------------------------------------------

  /** `fetchAllTasks`: every live task once, newest first, or the fetch
      error. */
  function FetchAllTasks(ctx: Context, fetch: Outcome): (r: Result<seq<Task>, Thrown>)
    ensures fetch.Failed? ==> r == Err(Storage(fetch.message))
    ensures fetch.Succeeded? ==> r.Ok? && NewestFirst(r.value) && multiset(r.value) == multiset(ctx.live)
  {
    if fetch.Failed? then Err(Storage(fetch.message)) else Ok(FetchAll(ctx))
  }

  /** `addTask(name:date:)`: a blank name throws `invalidTaskName` and
      inserts nothing; otherwise exactly one incomplete task with the trimmed
      name, the given date and a fresh identity is inserted, and the save
      decides what is returned. */
  function AddTask(ctx: Context, name: string, date: Timestamp, save: Outcome): (r: Step<Task>)
    ensures IsBlank(name) ==> r == Step(ctx, Err(Data(InvalidTaskName)))
    ensures !IsBlank(name) ==>
      var t := Task(ctx.nextId, Trim(name), date, false);
      && Trim(name) != []
      && multiset(r.ctx.live) == multiset(ctx.live) + multiset{t}
      && r.ctx.nextId == ctx.nextId + 1
      && (save.Succeeded? ==> r.result == Ok(t) && r.ctx.durable == r.ctx.live)
      && (save.Failed? ==> r.result == Err(Storage(save.message)) && r.ctx.durable == ctx.durable)
    ensures Valid(ctx) ==> Valid(r.ctx)
  {
    var trimmed := Trim(name);
    if trimmed == [] then Step(ctx, Err(Data(InvalidTaskName)))
    else
      var inserted := Insert(ctx, trimmed, date);
      Commit(inserted, save, NewTask(ctx.nextId, trimmed, date))
  }

  /** The new name and date of an edited task. */
  function Rename(name: string, date: Timestamp): Task -> Task
  {
    (t: Task) => t.(name := name, timestamp := date)
  }

  /** `updateTask(_:name:date:)`: a blank name throws `invalidTaskName` and
      leaves the task untouched; otherwise the task gets the trimmed name
      and the date, keeping its identity and completion flag, and no other
      task changes. */
  function UpdateTask(ctx: Context, id: nat, name: string, date: Timestamp, save: Outcome): (r: Step<()>)
    ensures IsBlank(name) ==> r == Step(ctx, Err(Data(InvalidTaskName)))
    ensures !IsBlank(name) ==>
      && |r.ctx.live| == |ctx.live|
      && (forall i :: 0 <= i < |ctx.live| && ctx.live[i].id != id ==> r.ctx.live[i] == ctx.live[i])
      && (forall i :: 0 <= i < |ctx.live| && ctx.live[i].id == id ==>
            && r.ctx.live[i].id == id
            && r.ctx.live[i].name == Trim(name) && r.ctx.live[i].timestamp == date
            && r.ctx.live[i].completed == ctx.live[i].completed)
      && (save.Succeeded? <==> r.result.Ok?)
      && (save.Succeeded? ==> r.ctx.durable == r.ctx.live)
      && (save.Failed? ==> r.result == Err(Storage(save.message)) && r.ctx.durable == ctx.durable)
    ensures Valid(ctx) ==> Valid(r.ctx)
  {
    var trimmed := Trim(name);
    if trimmed == [] then Step(ctx, Err(Data(InvalidTaskName)))
    else Commit(Mutate(ctx, id, Rename(trimmed, date)), save, ())
  }

  /** `toggleTaskCompletion`: only the completion flag of the task changes. */
  function ToggleTaskCompletion(ctx: Context, id: nat, save: Outcome): (r: Step<()>)
    ensures |r.ctx.live| == |ctx.live|
    ensures forall i :: 0 <= i < |ctx.live| && ctx.live[i].id != id ==> r.ctx.live[i] == ctx.live[i]
    ensures forall i :: 0 <= i < |ctx.live| && ctx.live[i].id == id ==>
      r.ctx.live[i].completed != ctx.live[i].completed
      && r.ctx.live[i].(completed := ctx.live[i].completed) == ctx.live[i]
    ensures save.Succeeded? <==> r.result.Ok?
    ensures save.Succeeded? ==> r.ctx.durable == r.ctx.live
    ensures save.Failed? ==> r.result == Err(Storage(save.message)) && r.ctx.durable == ctx.durable
    ensures Valid(ctx) ==> Valid(r.ctx)
  {
    Commit(Mutate(ctx, id, Toggled), save, ())
  }

  /** Toggling the same task twice restores every live task, whatever the
      two saves did. */
  lemma ToggleTwiceRestores(ctx: Context, id: nat, first: Outcome, second: Outcome)
    ensures ToggleTaskCompletion(ToggleTaskCompletion(ctx, id, first).ctx, id, second).ctx.live == ctx.live
  {
    var once := ToggleTaskCompletion(ctx, id, first).ctx;
    MutateInvolution(ctx, id, Toggled);
    assert Mutate(once, id, Toggled).live == Mutate(Mutate(ctx, id, Toggled), id, Toggled).live;
  }

  /** `deleteTask`: the task with identity `id` goes, every other task
      stays, in order. */
  function DeleteTask(ctx: Context, id: nat, save: Outcome): (r: Step<()>)
    ensures forall t :: t in r.ctx.live <==> t in ctx.live && t.id != id
    ensures SubsequenceOf(r.ctx.live, ctx.live)
    ensures save.Succeeded? <==> r.result.Ok?
    ensures save.Succeeded? ==> r.ctx.durable == r.ctx.live
    ensures save.Failed? ==> r.result == Err(Storage(save.message)) && r.ctx.durable == ctx.durable
    ensures Valid(ctx) ==> Valid(r.ctx)
  {
    Commit(Remove(ctx, {id}), save, ())
  }

  /** `deleteTasks`: deletes the tasks one by one, then saves once. Exactly
      the tasks whose identity is listed go; every other task stays, in
      order. */
  method DeleteTasks(ctx: Context, ids: seq<nat>, save: Outcome) returns (r: Step<()>)
    ensures forall t :: t in r.ctx.live <==> t in ctx.live && t.id !in ids
    ensures SubsequenceOf(r.ctx.live, ctx.live)
    ensures save.Succeeded? <==> r.result.Ok?
    ensures save.Succeeded? ==> r.ctx.durable == r.ctx.live
    ensures save.Failed? ==> r.result == Err(Storage(save.message)) && r.ctx.durable == ctx.durable
    ensures Valid(ctx) ==> Valid(r.ctx)
  {
    var live := ctx.live;
    assert Elements(ids[..0]) == {};
    FilterKeepsAll(ctx.live, OutsideP({}));
    for k := 0 to |ids|
      invariant live == Filter(ctx.live, OutsideP(Elements(ids[..k])))
    {
      RemoveTwice(ctx.live, Elements(ids[..k]), {ids[k]});
      ElementsSnoc(ids, k);
      live := Filter(live, OutsideP({ids[k]}));
    }
    assert ids[..|ids|] == ids;
    var cur := ctx.(live := live);
    assert cur == Remove(ctx, Elements(ids));
    assert forall n :: n in Elements(ids) <==> n in ids;
    r := Commit(cur, save, ());
  }

  /** The identities listed in `ids`. */
  function Elements(ids: seq<nat>): set<nat>
  {
    set x | x in ids
  }

  lemma ElementsSnoc(ids: seq<nat>, k: nat)
    requires k < |ids|
    ensures Elements(ids[..k + 1]) == Elements(ids[..k]) + {ids[k]}
  {
    assert ids[..k + 1] == ids[..k] + [ids[k]];
  }

  // ---------------------------------------------------------------------
  // TaskFilterService
  // ---------------------------------------------------------------------

  /** `filterTodayTasks`: a permutation of exactly the tasks due on the day
      of `now`, every incomplete one before every completed one. */
  function FilterTodayTasks(tasks: seq<Task>, cal: Calendar, now: Timestamp): (r: seq<Task>)
    ensures forall t :: t in r <==> t in tasks && IsToday(cal, now, t)
    ensures multiset(r) == multiset(Filter(tasks, TodayP(cal, now)))
    ensures PendingFirst(r)
  {
    var r := SortPendingFirst(Filter(tasks, TodayP(cal, now)));
    assert forall t :: t in r <==> t in multiset(r);
    r
  }

  /** `filterWeeklyTasks`: the tasks whose week-of-year and year equal
      `now`'s, in input order. */
  function FilterWeeklyTasks(tasks: seq<Task>, cal: Calendar, now: Timestamp): (r: seq<Task>)
    ensures forall t :: t in r <==> t in tasks && IsThisWeek(cal, now, t)
    ensures forall t :: multiset(r)[t] == if IsThisWeek(cal, now, t) then multiset(tasks)[t] else 0
    ensures SubsequenceOf(r, tasks)
  {
    FilterMultiplicity(tasks, ThisWeekP(cal, now));
    Filter(tasks, ThisWeekP(cal, now))
  }

  /** `filterPreviousIncompleteTasks`: the incomplete tasks due strictly
      before `now` and not today, in input order. */
  function FilterPreviousIncompleteTasks(tasks: seq<Task>, cal: Calendar, now: Timestamp): (r: seq<Task>)
    ensures forall t :: t in r <==> t in tasks && !t.completed && t.timestamp < now && !IsToday(cal, now, t)
    ensures forall t :: (multiset(r)[t] ==
      if !t.completed && t.timestamp < now && !IsToday(cal, now, t) then multiset(tasks)[t] else 0)
    ensures SubsequenceOf(r, tasks)
  {
    FilterMultiplicity(tasks, PreviousIncompleteP(cal, now));
    Filter(tasks, PreviousIncompleteP(cal, now))
  }

  /** Whether a task's name contains the query, ignoring case. */
  function MatchesP(query: string): Task -> bool
  {
    (t: Task) => ContainsIgnoringCase(t.name, query)
  }

  /** `filterTasks(_:with:)`: the input itself for an empty query, else the
      tasks whose name contains the query ignoring case, in input order. */
  function FilterTasks(tasks: seq<Task>, query: string): (r: seq<Task>)
    ensures query == [] ==> r == tasks
    ensures SubsequenceOf(r, tasks)
    ensures query != [] ==> forall t :: t in r <==> t in tasks && ContainsIgnoringCase(t.name, query)
    ensures query != [] ==> forall t :: multiset(r)[t] == if ContainsIgnoringCase(t.name, query) then multiset(tasks)[t] else 0
  {
    if query == [] then
      SubsequenceOfSelf(tasks);
      tasks
    else
      FilterMultiplicity(tasks, MatchesP(query));
      Filter(tasks, MatchesP(query))
  }

  /** No task is both due today and previous-incomplete, so the two lists
      together hold at most all the tasks. */
  lemma TodayAndPreviousDisjoint(tasks: seq<Task>, cal: Calendar, now: Timestamp)
    ensures forall t :: !(t in FilterTodayTasks(tasks, cal, now) && t in FilterPreviousIncompleteTasks(tasks, cal, now))
    ensures |FilterTodayTasks(tasks, cal, now)| + |FilterPreviousIncompleteTasks(tasks, cal, now)| <= |tasks|
  {
    FilterDisjointCount(tasks, TodayP(cal, now), PreviousIncompleteP(cal, now));
    assert |FilterTodayTasks(tasks, cal, now)| == |multiset(Filter(tasks, TodayP(cal, now)))|;
  }

  /** Every task due today is listed for this week too, and the weekly list
      is at least as long. */
  lemma TodayWithinWeekly(tasks: seq<Task>, cal: Calendar, now: Timestamp)
    ensures forall t :: t in FilterTodayTasks(tasks, cal, now) ==> t in FilterWeeklyTasks(tasks, cal, now)
    ensures |FilterTodayTasks(tasks, cal, now)| <= |FilterWeeklyTasks(tasks, cal, now)|
  {
    FilterWeakerCount(tasks, TodayP(cal, now), ThisWeekP(cal, now));
    assert |FilterTodayTasks(tasks, cal, now)| == |multiset(Filter(tasks, TodayP(cal, now)))|;
  }

  // ---------------------------------------------------------------------
  // TaskStatisticsService and TaskSummary
  // ---------------------------------------------------------------------

  datatype TaskSummary = TaskSummary(
    todayCount: int,
    todayCompleted: int,
    weeklyCount: int,
    weeklyCompleted: int,
    previousIncompleteCount: int,
    totalCount: int,
    totalCompleted: int)
  {
    /** The bounds every summary of a task list satisfies. */
    predicate WellFormed()
    {
      && 0 <= todayCompleted <= todayCount <= weeklyCount <= totalCount
      && 0 <= weeklyCompleted <= weeklyCount
      && 0 <= totalCompleted <= totalCount
      && todayCompleted <= weeklyCompleted <= totalCompleted
      && 0 <= previousIncompleteCount
      && todayCount + previousIncompleteCount <= totalCount
      && previousIncompleteCount + totalCompleted <= totalCount
    }

    /** `todayDisplayText`. */
    function TodayDisplayText(): (s: string)
      ensures s == "No tasks for today." <==> todayCount == 0
      ensures todayCount != 0 ==> IsCanonicalNumeral(s) && ParseInt(s) == todayCount
    {
      CountText(todayCount, "No tasks for today.")
    }

    /** `weeklyDisplayText`. */
    function WeeklyDisplayText(): (s: string)
      ensures s == "No tasks for this week" <==> weeklyCount == 0
      ensures weeklyCount != 0 ==> IsCanonicalNumeral(s) && ParseInt(s) == weeklyCount
    {
      CountText(weeklyCount, "No tasks for this week")
    }

    /** `previousDisplayText`. */
    function PreviousDisplayText(): (s: string)
      ensures s == "No pending previous tasks." <==> previousIncompleteCount == 0
      ensures previousIncompleteCount != 0 ==> IsCanonicalNumeral(s) && ParseInt(s) == previousIncompleteCount
    {
      CountText(previousIncompleteCount, "No pending previous tasks.")
    }

    /** `completionRate`, guarded against an empty list: the completed
        fraction, 0 for no tasks, within [0, 1] for a summary of a list,
        and 1 exactly when every task of a non-empty list is done. */
    function CompletionRate(): (rate: real)
      ensures totalCount <= 0 ==> rate == 0.0
      ensures WellFormed() ==> 0.0 <= rate <= 1.0
      ensures WellFormed() && totalCount > 0 ==> (rate == 1.0 <==> totalCompleted == totalCount)
      ensures totalCount > 0 ==> rate * totalCount as real == totalCompleted as real
    {
      if totalCount > 0 then
        RatioFacts(totalCompleted as real, totalCount as real);
        totalCompleted as real / totalCount as real
      else 0.0
    }
  }

  /** The fraction `done / total` of a positive total: multiplying back
      gives `done`, it lies in [0, 1] when `done` does in [0, total], and it
      is 1 exactly when `done` is the total. */
  lemma RatioFacts(done: real, total: real)
    requires total > 0.0
    ensures (done / total) * total == done
    ensures 0.0 <= done <= total ==> 0.0 <= done / total <= 1.0
    ensures done / total == 1.0 <==> done == total
  {
    var r := done / total;
    assert r * total == done;
    assert (r - 1.0) * total == done - total;
  }

  /** The count as the summary shows it: `emptyMessage` for zero, otherwise
      the decimal number. */
  function CountText(count: int, emptyMessage: string): (s: string)
    requires !IsNumeral(emptyMessage)
    ensures s == emptyMessage <==> count == 0
    ensures count != 0 ==> IsCanonicalNumeral(s) && ParseInt(s) == count
  {
    if count == 0 then emptyMessage
    else IntToString(count)
  }

  /** `generateSummary`: the size of each list and of its completed part,
      which obey every bound of `WellFormed`. */
  function GenerateSummary(tasks: seq<Task>, cal: Calendar, now: Timestamp): (r: TaskSummary)
    ensures r.WellFormed()
    ensures r.totalCount == |tasks|
    ensures r.todayCount == |Filter(tasks, TodayP(cal, now))|
    ensures r.weeklyCount == |Filter(tasks, ThisWeekP(cal, now))|
    ensures r.previousIncompleteCount == |Filter(tasks, PreviousIncompleteP(cal, now))|
    ensures r.totalCompleted == |Filter(tasks, IsCompleted)|
    ensures r.todayCompleted == |Filter(Filter(tasks, TodayP(cal, now)), IsCompleted)|
    ensures r.weeklyCompleted == |Filter(Filter(tasks, ThisWeekP(cal, now)), IsCompleted)|
    ensures tasks == [] ==> r.CompletionRate() == 0.0
  {
    var today := FilterTodayTasks(tasks, cal, now);
    var weekly := FilterWeeklyTasks(tasks, cal, now);
    var previous := FilterPreviousIncompleteTasks(tasks, cal, now);
    SummaryBounds(tasks, cal, now);
    TaskSummary(
      |today|,
      |Filter(today, IsCompleted)|,
      |weekly|,
      |Filter(weekly, IsCompleted)|,
      |previous|,
      |tasks|,
      |Filter(tasks, IsCompleted)|)
  }

  /** The counting facts behind `GenerateSummary`'s bounds. */
  lemma SummaryBounds(tasks: seq<Task>, cal: Calendar, now: Timestamp)
    ensures var today := FilterTodayTasks(tasks, cal, now);
      var weekly := FilterWeeklyTasks(tasks, cal, now);
      var previous := FilterPreviousIncompleteTasks(tasks, cal, now);
      var done := |Filter(tasks, IsCompleted)|;
      && |today| == |Filter(tasks, TodayP(cal, now))|
      && |Filter(today, IsCompleted)| == |Filter(Filter(tasks, TodayP(cal, now)), IsCompleted)|
      && |Filter(today, IsCompleted)| <= |Filter(weekly, IsCompleted)| <= done
      && |today| <= |weekly|
      && |today| + |previous| <= |tasks|
      && |previous| + done <= |tasks|
  {
    var todayP, weekP, prevP := TodayP(cal, now), ThisWeekP(cal, now), PreviousIncompleteP(cal, now);
    var sorted := FilterTodayTasks(tasks, cal, now);
    var plain := Filter(tasks, todayP);
    assert |sorted| == |multiset(plain)|;
    // the completed tasks due today
    assert Filter(sorted, IsCompleted) == Filter(plain, IsCompleted);
    FilterCommutes(tasks, todayP, IsCompleted);
    FilterCommutes(tasks, weekP, IsCompleted);
    FilterWeakerCount(Filter(tasks, IsCompleted), todayP, weekP);
    FilterNestedCount(tasks, weekP, IsCompleted);
    TodayAndPreviousDisjoint(tasks, cal, now);
    TodayWithinWeekly(tasks, cal, now);
    FilterDisjointCount(tasks, prevP, IsCompleted);
  }
}

=== FILE: task_view_model.dfy ===
/**
 `TaskViewModel`: the cached task list and its three partitions, the
 search-filtered views of each partition, and the mutations that write
 through the store and then reload everything.
 */
module TaskViewModel {
  import opened Wrappers
  import opened Text
  import opened Seqs
  import opened Tasks
  import opened Store
  import Service = TaskDataService

  /** Which filtered list a swipe-to-delete came from. */
  datatype TaskList = Today | Weekly | Previous

  datatype ViewModel = ViewModel(
    context: Option<Context>,
    allTasks: seq<Task>,
    todayTasks: seq<Task>,
    weeklyTasks: seq<Task>,
    previousIncompleteTasks: seq<Task>,
    todaySearchText: string,
    weeklySearchText: string,
    previousSearchText: string,
    errorMessage: Option<string>)

  /** What one operation learns from the outside world: the calendar, the
      clock reading, and how the store's `save()` and `fetch()` go. */
  datatype Env = Env(cal: Calendar, now: Timestamp, save: Outcome, fetch: Outcome)

  /** A freshly created view model, before `configure(with:)`: no store, no
      cached tasks, empty search texts and no error. */
  function Initial(): (r: ViewModel)
    ensures r.context.None? && r.errorMessage.None?
    ensures r.allTasks == [] && r.todayTasks == [] && r.weeklyTasks == [] && r.previousIncompleteTasks == []
    ensures r.todaySearchText == [] && r.weeklySearchText == [] && r.previousSearchText == []
  {
    ViewModel(None, [], [], [], [], "", "", "", None)
  }

  /** The three partitions hold exactly the tasks of `allTasks` that belong
      to them, each in `allTasks` order. */
  ghost predicate Categorised(vm: ViewModel, cal: Calendar, now: Timestamp)
  {
    && SubsequenceOf(vm.todayTasks, vm.allTasks)
    && (forall t :: t in vm.todayTasks <==> t in vm.allTasks && IsToday(cal, now, t))
    && (forall t :: multiset(vm.todayTasks)[t] == if IsToday(cal, now, t) then multiset(vm.allTasks)[t] else 0)
    && SubsequenceOf(vm.weeklyTasks, vm.allTasks)
    && (forall t :: t in vm.weeklyTasks <==> t in vm.allTasks && IsThisWeek(cal, now, t))
    && (forall t :: multiset(vm.weeklyTasks)[t] == if IsThisWeek(cal, now, t) then multiset(vm.allTasks)[t] else 0)
    && SubsequenceOf(vm.previousIncompleteTasks, vm.allTasks)
    && (forall t :: t in vm.previousIncompleteTasks <==>
          t in vm.allTasks && !t.completed && t.timestamp < now && !IsToday(cal, now, t))
    && (forall t :: multiset(vm.previousIncompleteTasks)[t] ==
          (if !t.completed && t.timestamp < now && !IsToday(cal, now, t) then multiset(vm.allTasks)[t] else 0))
  }

  /** The relations between the partitions: today's tasks are all this
      week's, and none of them is previous-incomplete; no previous task is
      completed, due in the future, or due today. */
  lemma CategorisedPartitions(vm: ViewModel, cal: Calendar, now: Timestamp)
    requires Categorised(vm, cal, now)
    ensures forall t :: t in vm.todayTasks ==> t in vm.weeklyTasks
    ensures forall t :: !(t in vm.todayTasks && t in vm.previousIncompleteTasks)
    ensures forall t :: t in vm.previousIncompleteTasks ==>
      !t.completed && t.timestamp < now && !IsToday(cal, now, t)
  {
  }

  /** `updateFilteredTasks`: recomputes the partitions from `allTasks`. */
  function UpdateFilteredTasks(vm: ViewModel, cal: Calendar, now: Timestamp): (r: ViewModel)
    ensures Categorised(r, cal, now)
    ensures r.(todayTasks := vm.todayTasks, weeklyTasks := vm.weeklyTasks,
               previousIncompleteTasks := vm.previousIncompleteTasks) == vm
  {
    FilterMultiplicity(vm.allTasks, TodayP(cal, now));
    FilterMultiplicity(vm.allTasks, ThisWeekP(cal, now));
    FilterMultiplicity(vm.allTasks, PreviousIncompleteP(cal, now));
    vm.(todayTasks := Filter(vm.allTasks, TodayP(cal, now)),
        weeklyTasks := Filter(vm.allTasks, ThisWeekP(cal, now)),
        previousIncompleteTasks := Filter(vm.allTasks, PreviousIncompleteP(cal, now)))
  }

  /** The partitions are up to date with `allTasks`. */
  predicate UpToDate(vm: ViewModel, cal: Calendar, now: Timestamp)
  {
    UpdateFilteredTasks(vm, cal, now) == vm
  }

  /** `refreshAllTasks`: without a store nothing happens; a failed fetch
      only records the error; otherwise `allTasks` becomes the live tasks
      newest first and the partitions are recomputed from it. */
  function Refresh(vm: ViewModel, env: Env): (r: ViewModel)
    ensures vm.context.None? ==> r == vm
    ensures vm.context.Some? && env.fetch.Failed? ==> r == vm.(errorMessage := Some(env.fetch.message))
    ensures vm.context.Some? && env.fetch.Succeeded? ==>
      && NewestFirst(r.allTasks)
      && multiset(r.allTasks) == multiset(vm.context.value.live)
      && Categorised(r, env.cal, env.now)
      && UpToDate(r, env.cal, env.now)
      && r.context == vm.context && r.errorMessage == vm.errorMessage
      && r.todaySearchText == vm.todaySearchText
      && r.weeklySearchText == vm.weeklySearchText
      && r.previousSearchText == vm.previousSearchText
  {
    match vm.context
    case None => vm
    case Some(ctx) =>
      match Service.FetchAllTasks(ctx, env.fetch)
      case Err(e) => vm.(errorMessage := Some(Service.ErrorDescription(e)))
      case Ok(tasks) => UpdateFilteredTasks(vm.(allTasks := tasks), env.cal, env.now)
  }

  /** Refreshing again with nothing changed in between changes nothing. */
  lemma RefreshIdempotent(vm: ViewModel, env: Env)
    ensures Refresh(Refresh(vm, env), env) == Refresh(vm, env)
  {
  }

  /** After a successful fetch the cache depends only on the store (and the
      search texts and error it keeps): whatever was cached before is
      forgotten. */
  lemma RefreshForgetsCache(a: ViewModel, b: ViewModel, env: Env)
    requires a.context.Some? && a.context == b.context && env.fetch.Succeeded?
    ensures Refresh(a, env).allTasks == Refresh(b, env).allTasks
    ensures Refresh(a, env).todayTasks == Refresh(b, env).todayTasks
    ensures Refresh(a, env).weeklyTasks == Refresh(b, env).weeklyTasks
    ensures Refresh(a, env).previousIncompleteTasks == Refresh(b, env).previousIncompleteTasks
  {
  }

  /** A fresh view model is consistent whatever the clock says: its empty
      partitions are up to date, refreshing it does nothing until a store is
      attached, and every filtered view is empty. */
  lemma InitialIsEmpty(env: Env, list: TaskList)
    ensures UpToDate(Initial(), env.cal, env.now)
    ensures Refresh(Initial(), env) == Initial()
    ensures FilteredList(Initial(), list) == []
  {
  }

  /** `configure(with:)`: attaches the store and loads from it; after a
      successful fetch the cache is exactly the store's live tasks, newest
      first and partitioned, with the error and search texts kept; after a
      failed one only the store and the error change. */
  function Configure(vm: ViewModel, ctx: Context, env: Env): (r: ViewModel)
    ensures r.context == Some(ctx)
    ensures env.fetch.Succeeded? ==>
      && NewestFirst(r.allTasks)
      && multiset(r.allTasks) == multiset(ctx.live)
      && Categorised(r, env.cal, env.now)
      && r.errorMessage == vm.errorMessage
      && r.todaySearchText == vm.todaySearchText
      && r.weeklySearchText == vm.weeklySearchText
      && r.previousSearchText == vm.previousSearchText
    ensures env.fetch.Failed? ==>
      r == vm.(context := Some(ctx), errorMessage := Some(env.fetch.message))
  {
    Refresh(vm.(context := Some(ctx)), env)
  }

  // ---------------------------------------------------------------------
  // Search-filtered views
  // ---------------------------------------------------------------------

  /** `filteredTodayTasks`: today's tasks matching the search text (all of
      them for an empty text), incomplete ones first. */
  function FilteredTodayTasks(vm: ViewModel): (r: seq<Task>)
    ensures multiset(r) == multiset(Service.FilterTasks(vm.todayTasks, vm.todaySearchText))
    ensures forall t :: t in r <==>
      t in vm.todayTasks && (vm.todaySearchText == [] || ContainsIgnoringCase(t.name, vm.todaySearchText))
    ensures PendingFirst(r)
  {
    var r := if vm.todaySearchText == [] then SortPendingFirst(vm.todayTasks)
             else SortPendingFirst(Filter(vm.todayTasks, Service.MatchesP(vm.todaySearchText)));
    assert forall t :: t in r <==> t in multiset(r);
    r
  }

  /** `filteredWeeklyTasks`: the weekly list itself for an empty search
      text, else its matching tasks in order. */
  function FilteredWeeklyTasks(vm: ViewModel): (r: seq<Task>)
    ensures vm.weeklySearchText == [] ==> r == vm.weeklyTasks
    ensures SubsequenceOf(r, vm.weeklyTasks)
    ensures vm.weeklySearchText != [] ==>
      forall t :: t in r <==> t in vm.weeklyTasks && ContainsIgnoringCase(t.name, vm.weeklySearchText)
    ensures vm.weeklySearchText != [] ==>
      forall t :: multiset(r)[t] == if ContainsIgnoringCase(t.name, vm.weeklySearchText) then multiset(vm.weeklyTasks)[t] else 0
  {
    if vm.weeklySearchText == [] then
      SubsequenceOfSelf(vm.weeklyTasks);
      vm.weeklyTasks
    else
      FilterMultiplicity(vm.weeklyTasks, Service.MatchesP(vm.weeklySearchText));
      Filter(vm.weeklyTasks, Service.MatchesP(vm.weeklySearchText))
  }

  /** `filteredPreviousTasks`: the previous-incomplete list itself for an
      empty search text, else its matching tasks in order. */
  function FilteredPreviousTasks(vm: ViewModel): (r: seq<Task>)
    ensures vm.previousSearchText == [] ==> r == vm.previousIncompleteTasks
    ensures SubsequenceOf(r, vm.previousIncompleteTasks)
    ensures vm.previousSearchText != [] ==>
      forall t :: t in r <==> t in vm.previousIncompleteTasks && ContainsIgnoringCase(t.name, vm.previousSearchText)
    ensures vm.previousSearchText != [] ==>
      forall t :: multiset(r)[t] ==
        (if ContainsIgnoringCase(t.name, vm.previousSearchText) then multiset(vm.previousIncompleteTasks)[t] else 0)
  {
    if vm.previousSearchText == [] then
      SubsequenceOfSelf(vm.previousIncompleteTasks);
      vm.previousIncompleteTasks
    else
      FilterMultiplicity(vm.previousIncompleteTasks, Service.MatchesP(vm.previousSearchText));
      Filter(vm.previousIncompleteTasks, Service.MatchesP(vm.previousSearchText))
  }

  function FilteredList(vm: ViewModel, list: TaskList): seq<Task>
  {
    match list
    case Today => FilteredTodayTasks(vm)
    case Weekly => FilteredWeeklyTasks(vm)
    case Previous => FilteredPreviousTasks(vm)
  }

  /** With partitions up to date, the view model's filtered today list is
      what the filter service computes from `allTasks`, although the view
      model searches today's tasks before ordering them and the service
      orders before searching. */
  lemma FilteredTodayMatchesService(vm: ViewModel, cal: Calendar, now: Timestamp)
    requires UpToDate(vm, cal, now)
    ensures FilteredTodayTasks(vm)
      == Service.FilterTasks(Service.FilterTodayTasks(vm.allTasks, cal, now), vm.todaySearchText)
  {
    var q := vm.todaySearchText;
    assert vm.todayTasks == Filter(vm.allTasks, TodayP(cal, now));
    if q != [] {
      SearchCommutesWithSort(vm.todayTasks, Service.MatchesP(q));
    }
  }

  /** With partitions up to date, the filtered weekly and previous lists
      are the filter service's lists searched by the same text. */
  lemma FilteredWeeklyAndPreviousMatchService(vm: ViewModel, cal: Calendar, now: Timestamp)
    requires UpToDate(vm, cal, now)
    ensures FilteredWeeklyTasks(vm)
      == Service.FilterTasks(Service.FilterWeeklyTasks(vm.allTasks, cal, now), vm.weeklySearchText)
    ensures FilteredPreviousTasks(vm)
      == Service.FilterTasks(Service.FilterPreviousIncompleteTasks(vm.allTasks, cal, now), vm.previousSearchText)
  {
    assert vm.weeklyTasks == Filter(vm.allTasks, ThisWeekP(cal, now));
    assert vm.previousIncompleteTasks == Filter(vm.allTasks, PreviousIncompleteP(cal, now));
  }

  /** Keeping the tasks that satisfy `p` commutes with ordering incomplete
      tasks first. */
  lemma SearchCommutesWithSort(s: seq<Task>, p: Task -> bool)
    ensures SortPendingFirst(Filter(s, p)) == Filter(SortPendingFirst(s), p)
  {
    var pending, done := Filter(s, IsPending), Filter(s, IsCompleted);
    FilterAppend(pending, done, p);
    FilterCommutes(s, p, IsPending);
    FilterCommutes(s, p, IsCompleted);
  }

  // ---------------------------------------------------------------------
  // Mutations
  // ---------------------------------------------------------------------

  /** The cache, search texts and store of `vm` kept as they were, with
      `message` recorded as the error (`handleError`). */
  predicate KeptWithError(r: ViewModel, vm: ViewModel, message: string)
  {
    && r.(context := vm.context, errorMessage := vm.errorMessage) == vm
    && r.errorMessage == Some(message)
  }

  /** What every mutation of the view model leaves once the store's live
      objects are those of `after`: the view model holds `after`, which is
      committed exactly when the save succeeds; a successful save and fetch
      reload the cache from it, newest first and partitioned, keeping the
      error and the search texts; a failed save,
      or a successful save followed by a failed fetch, keeps the cache and
      records that error. */
  ghost predicate Settled(r: ViewModel, vm: ViewModel, after: Context, env: Env)
    requires vm.context.Some?
  {
    && r.context == Some(after)
    && (env.save.Succeeded? ==> after.durable == after.live)
    && (env.save.Failed? ==> after.durable == vm.context.value.durable)
    && (env.save.Succeeded? && env.fetch.Succeeded? ==>
          && NewestFirst(r.allTasks)
          && multiset(r.allTasks) == multiset(after.live)
          && Categorised(r, env.cal, env.now)
          && r.errorMessage == vm.errorMessage
          && r.todaySearchText == vm.todaySearchText
          && r.weeklySearchText == vm.weeklySearchText
          && r.previousSearchText == vm.previousSearchText)
    && (env.save.Failed? ==> KeptWithError(r, vm, env.save.message))
    && (env.save.Succeeded? && env.fetch.Failed? ==> KeptWithError(r, vm, env.fetch.message))
  }

  /** After a store call (the `do`/`catch` of every mutation): reload on
      success; on failure keep the cache and record the error's
      description. Either way the store keeps what the call did. */
  function Settle<T>(vm: ViewModel, step: Service.Step<T>, env: Env): (r: ViewModel)
    requires vm.context.Some?
    ensures r.context == Some(step.ctx)
    ensures step.result.Ok? ==> r == Refresh(vm.(context := Some(step.ctx)), env)
    ensures step.result.Err? ==> KeptWithError(r, vm, Service.ErrorDescription(step.result.error))
  {
    match step.result
    case Ok(_) => Refresh(vm.(context := Some(step.ctx)), env)
    case Err(e) => vm.(context := Some(step.ctx), errorMessage := Some(Service.ErrorDescription(e)))
  }

  /** Committing a change that left the saved contents alone and then
      settling gives `Settled`. */
  lemma CommitSettles<T>(vm: ViewModel, changed: Context, value: T, env: Env)
    requires vm.context.Some? && changed.durable == vm.context.value.durable
    ensures Settled(Settle(vm, Service.Commit(changed, env.save, value), env), vm, Save(changed, env.save), env)
  {
    var step := Service.Commit(changed, env.save, value);
    var saved := Save(changed, env.save);
    var r := Settle(vm, step, env);
    if env.save.Succeeded? {
      assert r == Refresh(vm.(context := Some(saved)), env);
      if env.fetch.Failed? {
        assert r == vm.(context := Some(saved), errorMessage := Some(env.fetch.message));
      }
    } else {
      assert step.result == Err(Service.Storage(env.save.message));
    }
  }

  /** `addTask(name:date:)`: a blank name, or no store, changes nothing and
      reports nothing. Otherwise one incomplete task with the trimmed name,
      the date and a fresh identity joins the store, and the view model
      settles: after a successful save and fetch the task is in `allTasks`
      exactly once beside every task that was there. */
  function AddTask(vm: ViewModel, name: string, date: Timestamp, env: Env): (r: ViewModel)
    ensures vm.context.None? || IsBlank(name) ==> r == vm
    ensures vm.context.Some? && !IsBlank(name) ==>
      var ctx := vm.context.value;
      var t := Task(ctx.nextId, Trim(name), date, false);
      && r.context.Some?
      && multiset(r.context.value.live) == multiset(ctx.live) + multiset{t}
      && r.context.value.nextId == ctx.nextId + 1
      && Settled(r, vm, r.context.value, env)
      && (env.save.Succeeded? && env.fetch.Succeeded? && Valid(ctx) ==>
            && multiset(r.allTasks)[t] == 1
            && forall u :: u in r.allTasks && u.id == t.id ==> u == t)
  {
    match vm.context
    case None => vm
    case Some(ctx) =>
      var step := Service.AddTask(ctx, name, date, env.save);
      if step.result == Err(Service.Data(Service.InvalidTaskName)) then vm
      else
        var t := NewTask(ctx.nextId, Trim(name), date);
        var inserted := Insert(ctx, Trim(name), date);
        assert step == Service.Commit(inserted, env.save, t);
        CommitSettles(vm, inserted, t, env);
        var r := Settle(vm, step, env);
        if env.save.Succeeded? && env.fetch.Succeeded? && Valid(ctx) then
          AddedTaskListedOnce(ctx, t, r.allTasks);
          r
        else r
  }

  /** A task with the fresh identity `ctx.nextId`, added to a valid store's
      tasks, occurs once, and no other task shares its identity. */
  lemma AddedTaskListedOnce(ctx: Context, t: Task, all: seq<Task>)
    requires Valid(ctx) && t.id == ctx.nextId
    requires multiset(all) == multiset(ctx.live) + multiset{t}
    ensures multiset(all)[t] == 1
    ensures forall u :: u in all && u.id == t.id ==> u == t
  {
    assert t !in ctx.live;
    forall u | u in all && u.id == t.id
      ensures u == t
    {
      assert u in multiset(ctx.live) + multiset{t};
    }
  }

  /** `updateTask(_:name:date:)`: a blank name, or no store, changes nothing
      and reports nothing. Otherwise the task takes the trimmed name and the
      date, keeping its identity and completion flag, no other task changes,
      and the view model settles. */
  function UpdateTask(vm: ViewModel, id: nat, name: string, date: Timestamp, env: Env): (r: ViewModel)
    ensures vm.context.None? || IsBlank(name) ==> r == vm
    ensures vm.context.Some? && !IsBlank(name) ==>
      var ctx := vm.context.value;
      && r.context.Some?
      && |r.context.value.live| == |ctx.live|
      && (forall i :: 0 <= i < |ctx.live| ==>
            var (before, after) := (ctx.live[i], r.context.value.live[i]);
            if before.id == id then after == before.(name := Trim(name), timestamp := date)
            else after == before)
      && Settled(r, vm, r.context.value, env)
  {
    match vm.context
    case None => vm
    case Some(ctx) =>
      var step := Service.UpdateTask(ctx, id, name, date, env.save);
      if step.result == Err(Service.Data(Service.InvalidTaskName)) then vm
      else
        var changed := Mutate(ctx, id, Service.Rename(Trim(name), date));
        assert step == Service.Commit(changed, env.save, ());
        CommitSettles(vm, changed, (), env);
        Settle(vm, step, env)
  }

  /** `toggleTaskCompletion`: only the task's completion flag flips, and the
      view model settles. After a failed save the flip stays in the store's
      live objects (it is not rolled back). */
  function ToggleTaskCompletion(vm: ViewModel, id: nat, env: Env): (r: ViewModel)
    ensures vm.context.None? ==> r == vm
    ensures vm.context.Some? ==>
      var ctx := vm.context.value;
      && r.context.Some?
      && |r.context.value.live| == |ctx.live|
      && (forall i :: 0 <= i < |ctx.live| ==>
            var (before, after) := (ctx.live[i], r.context.value.live[i]);
            if before.id == id then after.completed != before.completed && after.(completed := before.completed) == before
            else after == before)
      && Settled(r, vm, r.context.value, env)
  {
    match vm.context
    case None => vm
    case Some(ctx) =>
      CommitSettles(vm, Mutate(ctx, id, Toggled), (), env);
      Settle(vm, Service.ToggleTaskCompletion(ctx, id, env.save), env)
  }

  /** `deleteTask`: the task goes from the store, every other task stays in
      order, and the view model settles; after a successful save and fetch
      `allTasks` is exactly the remaining tasks. */
  function DeleteTask(vm: ViewModel, id: nat, env: Env): (r: ViewModel)
    ensures vm.context.None? ==> r == vm
    ensures vm.context.Some? ==>
      var ctx := vm.context.value;
      && r.context.Some?
      && (forall t :: t in r.context.value.live <==> t in ctx.live && t.id != id)
      && SubsequenceOf(r.context.value.live, ctx.live)
      && Settled(r, vm, r.context.value, env)
    ensures vm.context.Some? && env.save.Succeeded? && env.fetch.Succeeded? ==>
      forall t :: t in r.allTasks <==> t in vm.context.value.live && t.id != id
  {
    match vm.context
    case None => vm
    case Some(ctx) =>
      var removed := Remove(ctx, {id});
      CommitSettles(vm, removed, (), env);
      var r := Settle(vm, Service.DeleteTask(ctx, id, env.save), env);
      assert r.context.value.live == removed.live;
      if env.save.Succeeded? && env.fetch.Succeeded? then
        SameMembers(r.allTasks, removed.live);
        r
      else r
  }

  /** The identities of the tasks at `offsets` in the chosen filtered list
      (`offsets.map { filteredTodayTasks[$0] }` and its siblings). */
  function IdsAt(vm: ViewModel, offsets: set<nat>, list: TaskList): (ids: set<nat>)
    requires forall o :: o in offsets ==> o < |FilteredList(vm, list)|
    ensures forall o :: o in offsets ==> FilteredList(vm, list)[o].id in ids
    ensures forall n :: n in ids ==> exists o :: o in offsets && FilteredList(vm, list)[o].id == n
  {
    var shown := FilteredList(vm, list);
    set o | o in offsets :: shown[o].id
  }

  /** `deleteTasks(at:from:)`: deletes exactly the tasks shown at `offsets`
      in the chosen filtered list, keeps every other task in order, and the
      view model settles. An offset past the end of the list would trap in
      Swift, so the caller must not pass one. */
  function DeleteTasksAt(vm: ViewModel, offsets: set<nat>, list: TaskList, env: Env): (r: ViewModel)
    requires vm.context.Some? ==> forall o :: o in offsets ==> o < |FilteredList(vm, list)|
    ensures vm.context.None? ==> r == vm
    ensures vm.context.Some? ==>
      var ids := IdsAt(vm, offsets, list);
      && r.context.Some?
      && (forall t :: t in r.context.value.live <==> t in vm.context.value.live && t.id !in ids)
      && (forall o :: o in offsets ==> forall t :: t in r.context.value.live ==> t.id != FilteredList(vm, list)[o].id)
      && SubsequenceOf(r.context.value.live, vm.context.value.live)
      && Settled(r, vm, r.context.value, env)
    ensures vm.context.Some? && env.save.Succeeded? && env.fetch.Succeeded? ==>
      forall t :: t in r.allTasks <==> t in vm.context.value.live && t.id !in IdsAt(vm, offsets, list)
  {
    match vm.context
    case None => vm
    case Some(ctx) =>
      var ids := IdsAt(vm, offsets, list);
      var removed := Remove(ctx, ids);
      CommitSettles(vm, removed, (), env);
      var r := Settle(vm, Service.Commit(removed, env.save, ()), env);
      assert r.context.value.live == removed.live;
      ShownTasksGone(vm, offsets, list, removed.live);
      if env.save.Succeeded? && env.fetch.Succeeded? then
        SameMembers(r.allTasks, removed.live);
        r
      else r
  }

  /** Two sequences with the same multiset have the same members. */
  lemma SameMembers(a: seq<Task>, b: seq<Task>)
    requires multiset(a) == multiset(b)
    ensures forall t :: t in a <==> t in b
  {
    assert forall t :: t in a <==> t in multiset(a);
    assert forall t :: t in b <==> t in multiset(b);
  }

  /** No task whose identity is outside `IdsAt` shares an identity with a
      task shown at one of the offsets. */
  lemma ShownTasksGone(vm: ViewModel, offsets: set<nat>, list: TaskList, live: seq<Task>)
    requires forall o :: o in offsets ==> o < |FilteredList(vm, list)|
    requires forall t :: t in live ==> t.id !in IdsAt(vm, offsets, list)
    ensures forall o :: o in offsets ==> forall t :: t in live ==> t.id != FilteredList(vm, list)[o].id
  {
  }

  /** The due date set to a clock reading. */
  function Retime(now: Timestamp): Task -> Task
  {
    (t: Task) => t.(timestamp := now)
  }

  /** `moveTaskToToday`: only the timestamp changes, to the clock reading
      `movedAt` taken by the move, and the view model settles, refreshing
      with its own later reading `env.now`. After a successful save and
      fetch the task is in today's list and not in the previous list when
      both readings fall on the same day; when the refresh happens on a
      later day, the task, if incomplete, is previous instead. */
  function MoveTaskToToday(vm: ViewModel, id: nat, movedAt: Timestamp, env: Env): (r: ViewModel)
    ensures vm.context.None? ==> r == vm
    ensures vm.context.Some? ==>
      var ctx := vm.context.value;
      && r.context.Some?
      && |r.context.value.live| == |ctx.live|
      && (forall i :: 0 <= i < |ctx.live| ==>
            var (before, after) := (ctx.live[i], r.context.value.live[i]);
            if before.id == id then after == before.(timestamp := movedAt) else after == before)
      && Settled(r, vm, r.context.value, env)
    ensures vm.context.Some? && env.save.Succeeded? && env.fetch.Succeeded?
            && Day(env.cal, movedAt) == Day(env.cal, env.now) ==>
      && (HasTask(vm.context.value, id) ==> exists t :: t in r.todayTasks && t.id == id)
      && (forall t :: t in r.previousIncompleteTasks ==> t.id != id)
    ensures vm.context.Some? && env.save.Succeeded? && env.fetch.Succeeded?
            && Day(env.cal, movedAt) != Day(env.cal, env.now) && movedAt < env.now ==>
      forall t :: t in r.context.value.live && t.id == id && !t.completed ==> t in r.previousIncompleteTasks
  {
    match vm.context
    case None => vm
    case Some(ctx) =>
      var moved := Mutate(ctx, id, Retime(movedAt));
      var step := Service.Commit(moved, env.save, ());
      CommitSettles(vm, moved, (), env);
      var r := Settle(vm, step, env);
      if env.save.Succeeded? && env.fetch.Succeeded? then
        var all := FetchAll(step.ctx);
        assert r.todayTasks == Filter(all, TodayP(env.cal, env.now));
        assert r.previousIncompleteTasks == Filter(all, PreviousIncompleteP(env.cal, env.now));
        MovedTaskLandsToday(ctx, id, env.cal, env.now, movedAt, step.ctx);
        MovedTaskFallsBehind(ctx, id, env.cal, env.now, movedAt, step.ctx);
        r
      else r
  }

  /** The reasoning behind `MoveTaskToToday`'s same-day promise: every copy
      of the moved task is due on the refresh's day, so a fetch after the
      move lists it among today's tasks and never among the previous ones. */
  lemma MovedTaskLandsToday(ctx: Context, id: nat, cal: Calendar, now: Timestamp, movedAt: Timestamp, moved: Context)
    requires moved.live == Mutate(ctx, id, Retime(movedAt)).live
    ensures Day(cal, movedAt) == Day(cal, now) ==>
      && (HasTask(ctx, id) ==> exists t :: t in Filter(FetchAll(moved), TodayP(cal, now)) && t.id == id)
      && (forall t :: t in Filter(FetchAll(moved), PreviousIncompleteP(cal, now)) ==> t.id != id)
  {
    if Day(cal, movedAt) == Day(cal, now) {
      var all := FetchAll(moved);
      forall t | t in Filter(all, PreviousIncompleteP(cal, now))
        ensures t.id != id
      {
        assert t in moved.live;
        var j :| 0 <= j < |moved.live| && moved.live[j] == t;
        assert t.id == id ==> t.timestamp == movedAt;
      }
      if HasTask(ctx, id) {
        var i :| 0 <= i < |ctx.live| && ctx.live[i].id == id;
        var t := moved.live[i];
        assert t in all && IsToday(cal, now, t);
        assert t in Filter(all, TodayP(cal, now));
      }
    }
  }

  /** A move whose refresh lands on a later day: every incomplete copy of
      the task is due before the refresh's clock and not on its day, so the
      fetch lists it among the previous tasks. */
  lemma MovedTaskFallsBehind(ctx: Context, id: nat, cal: Calendar, now: Timestamp, movedAt: Timestamp, moved: Context)
    requires moved.live == Mutate(ctx, id, Retime(movedAt)).live
    ensures Day(cal, movedAt) != Day(cal, now) && movedAt < now ==>
      forall t :: t in moved.live && t.id == id && !t.completed ==> t in Filter(FetchAll(moved), PreviousIncompleteP(cal, now))
  {
    if Day(cal, movedAt) != Day(cal, now) && movedAt < now {
      var all := FetchAll(moved);
      forall t | t in moved.live && t.id == id && !t.completed
        ensures t in Filter(all, PreviousIncompleteP(cal, now))
      {
        var j :| 0 <= j < |moved.live| && moved.live[j] == t;
        assert t.timestamp == movedAt;
        assert t in all;
      }
    }
  }

  // ---------------------------------------------------------------------
  // Search text and error state
  // ---------------------------------------------------------------------

  /** `updateTodaySearch`: sets today's search text and touches nothing
      else, so the partitions stay as fresh as they were. */
  function UpdateTodaySearch(vm: ViewModel, text: string): (r: ViewModel)
    ensures r.todaySearchText == text
    ensures r.(todaySearchText := vm.todaySearchText) == vm
  {
    vm.(todaySearchText := text)
  }

  /** `updateWeeklySearch`: sets the weekly search text only. */
  function UpdateWeeklySearch(vm: ViewModel, text: string): (r: ViewModel)
    ensures r.weeklySearchText == text
    ensures r.(weeklySearchText := vm.weeklySearchText) == vm
  {
    vm.(weeklySearchText := text)
  }

  /** `updatePreviousSearch`: sets the previous-tasks search text only. */
  function UpdatePreviousSearch(vm: ViewModel, text: string): (r: ViewModel)
    ensures r.previousSearchText == text
    ensures r.(previousSearchText := vm.previousSearchText) == vm
  {
    vm.(previousSearchText := text)
  }

  /** Clearing a search shows the whole list again: the weekly and previous
      lists as they are, today's list incomplete-first. */
  lemma ClearedSearchShowsAll(vm: ViewModel)
    ensures FilteredTodayTasks(UpdateTodaySearch(vm, "")) == SortPendingFirst(vm.todayTasks)
    ensures FilteredWeeklyTasks(UpdateWeeklySearch(vm, "")) == vm.weeklyTasks
    ensures FilteredPreviousTasks(UpdatePreviousSearch(vm, "")) == vm.previousIncompleteTasks
  {
  }

  /** `clearError`: forgets the recorded error and nothing else. */
  function ClearError(vm: ViewModel): (r: ViewModel)
    ensures r.errorMessage.None?
    ensures r.(errorMessage := vm.errorMessage) == vm
  {
    vm.(errorMessage := None)
  }

  // ---------------------------------------------------------------------
  // Count captions
  // ---------------------------------------------------------------------

  /** `todayTaskCount`, `weeklyTaskCount` and `previousIncompleteTaskCount`:
      the caption is the empty message exactly when the list is empty, and
      otherwise reads back as the list's length. */
  lemma CountCaptions(vm: ViewModel)
    ensures (Service.CountText(|vm.todayTasks|, "No tasks for today.") == "No tasks for today.") <==> vm.todayTasks == []
    ensures (Service.CountText(|vm.weeklyTasks|, "No tasks for this week") == "No tasks for this week") <==> vm.weeklyTasks == []
    ensures (Service.CountText(|vm.previousIncompleteTasks|, "No pending previous tasks.") == "No pending previous tasks.")
      <==> vm.previousIncompleteTasks == []
  {
  }
}

=== FILE: tasks.dfy ===
/**
 The `Task` record and the calendar questions the application asks about
 its timestamp.
 */
module Tasks {
  import opened Seqs

  /** A point in time; only its calendar day, week and year are consulted. */
  type Timestamp = int

  /** A to-do item. `id` stands for the persistence framework's object
      identity, which the application uses as the record key. */
  datatype Task = Task(id: nat, name: string, timestamp: Timestamp, completed: bool)

  /** A task as `Task.init` creates it: the given name and timestamp, not
      completed. */
  function NewTask(id: nat, name: string, timestamp: Timestamp): (t: Task)
    ensures t.id == id && t.name == name && t.timestamp == timestamp
    ensures !t.completed
  {
    Task(id, name, timestamp, false)
  }

  /** The same task with `completed` flipped (`completed.toggle()`). */
  function Toggled(t: Task): (r: Task)
    ensures r.completed != t.completed
    ensures r.(completed := t.completed) == t
  {
    t.(completed := !t.completed)
  }

  /** Toggling twice restores the task. */
  lemma ToggledTwice(t: Task)
    ensures Toggled(Toggled(t)) == t
  {
  }

  predicate IsPending(t: Task)
  {
    !t.completed
  }

  predicate IsCompleted(t: Task)
  {
    t.completed
  }

  /**
   The user's calendar, left abstract: which day a timestamp falls on, and
   the week-of-year and year components of a day. Because week and year are
   read off the day, two timestamps on the same day agree on both.
   */
  datatype Calendar = Calendar(dayOf: Timestamp -> int, weekOfDay: int -> int, yearOfDay: int -> int)

  function Day(cal: Calendar, t: Timestamp): int
  {
    cal.dayOf(t)
  }

  function WeekOfYear(cal: Calendar, t: Timestamp): int
  {
    cal.weekOfDay(cal.dayOf(t))
  }

  function Year(cal: Calendar, t: Timestamp): int
  {
    cal.yearOfDay(cal.dayOf(t))
  }

  /** `calendar.isDateInToday(t)` with the clock reading `now`. */
  predicate IsInToday(cal: Calendar, now: Timestamp, t: Timestamp)
  {
    Day(cal, t) == Day(cal, now)
  }

  /** The task is due on the day of `now`. */
  predicate IsToday(cal: Calendar, now: Timestamp, t: Task)
  {
    IsInToday(cal, now, t.timestamp)
  }

  /** The task's week-of-year and year both equal those of `now`. */
  predicate IsThisWeek(cal: Calendar, now: Timestamp, t: Task)
  {
    WeekOfYear(cal, t.timestamp) == WeekOfYear(cal, now) && Year(cal, t.timestamp) == Year(cal, now)
  }

  /** Not due today, due strictly before `now`, and not completed. */
  predicate IsPreviousIncomplete(cal: Calendar, now: Timestamp, t: Task)
  {
    !IsInToday(cal, now, t.timestamp) && t.timestamp < now && !t.completed
  }

  /** A task due today is due this week. */
  lemma TodayIsThisWeek(cal: Calendar, now: Timestamp, t: Task)
    ensures IsToday(cal, now, t) ==> IsThisWeek(cal, now, t)
  {
  }

  // The partition predicates as first-class values, so that every filter
  // over the same partition uses the very same function.

  function TodayP(cal: Calendar, now: Timestamp): Task -> bool
  {
    t => IsToday(cal, now, t)
  }

  function ThisWeekP(cal: Calendar, now: Timestamp): Task -> bool
  {
    t => IsThisWeek(cal, now, t)
  }

  function PreviousIncompleteP(cal: Calendar, now: Timestamp): Task -> bool
  {
    t => IsPreviousIncomplete(cal, now, t)
  }

  /** Incomplete tasks first, then completed ones, each group in input order:
      the result of `sorted { !$0.completed && $1.completed }`. */
  function SortPendingFirst(s: seq<Task>): (r: seq<Task>)
    ensures multiset(r) == multiset(s)
    ensures PendingFirst(r)
    ensures Filter(r, IsPending) == Filter(s, IsPending)
    ensures Filter(r, IsCompleted) == Filter(s, IsCompleted)
  {
    var pending := Filter(s, IsPending);
    var done := Filter(s, IsCompleted);
    FilterSplitMultiset(s, IsPending, IsCompleted);
    FilterAppend(pending, done, IsPending);
    FilterAppend(pending, done, IsCompleted);
    FilterKeepsAll(pending, IsPending);
    FilterKeepsAll(done, IsCompleted);
    FilterKeepsNone(pending, IsCompleted);
    FilterKeepsNone(done, IsPending);
    assert PendingFirst(pending + done) by {
      forall i, j | 0 <= i < j < |pending + done|
        ensures !((pending + done)[i].completed && !(pending + done)[j].completed)
      {
        if i < |pending| {
          assert (pending + done)[i] in pending;
        } else {
          assert (pending + done)[i] in done;
          assert (pending + done)[j] in done;
        }
      }
    }
    pending + done
  }

  /** No completed task comes before an incomplete one. */
  predicate PendingFirst(s: seq<Task>)
  {
    forall i, j :: 0 <= i < j < |s| ==> !(s[i].completed && !s[j].completed)
  }
}

=== FILE: text.dfy ===
/**
 The string primitives the application relies on from Foundation:
 trimming whitespace and newlines, case-insensitive containment, and the
 decimal rendering of an `Int` in string interpolation.
 */
module Text {

  // ---------------------------------------------------------------------
  // Trimming (`trimmingCharacters(in: .whitespacesAndNewlines)`)
  // ---------------------------------------------------------------------

  /** Foundation's `whitespacesAndNewlines`: Unicode general categories Z*
      together with U+0009..U+000D and U+0085. */
  predicate IsWhitespace(c: char)
  {
    || c == ' ' || c == '\t' || c == '\n' || c == '\r'
    || c == '\U{000B}' || c == '\U{000C}' || c == '\U{0085}' || c == '\U{00A0}'
    || c == '\U{1680}' || ('\U{2000}' <= c <= '\U{200A}')
    || c == '\U{2028}' || c == '\U{2029}' || c == '\U{202F}' || c == '\U{205F}'
    || c == '\U{3000}'
  }

  /** Every character of `s` is whitespace (vacuously true of ""). */
  predicate IsBlank(s: string)
  {
    forall i :: 0 <= i < |s| ==> IsWhitespace(s[i])
  }

  /** How many whitespace characters `s` begins with. */
  function LeadingBlanks(s: string): (n: nat)
    ensures n <= |s|
    ensures IsBlank(s[..n])
    ensures n < |s| ==> !IsWhitespace(s[n])
  {
    if |s| > 0 && IsWhitespace(s[0]) then
      var m := LeadingBlanks(s[1..]);
      assert forall i :: 1 <= i < m + 1 ==> s[i] == s[1..][..m][i - 1];
      1 + m
    else 0
  }

  /** How many whitespace characters `s` ends with. */
  function TrailingBlanks(s: string): (n: nat)
    ensures n <= |s|
    ensures IsBlank(s[|s| - n..])
    ensures n < |s| ==> !IsWhitespace(s[|s| - n - 1])
  {
    if |s| > 0 && IsWhitespace(s[|s| - 1]) then
      var t := s[..|s| - 1];
      var m := TrailingBlanks(t);
      assert forall i :: |s| - m - 1 <= i < |s| - 1 ==> s[i] == t[i];
      1 + m
    else 0
  }

  /** `s` without surrounding whitespace: the slice of `s` that starts after
      its leading whitespace, is followed only by whitespace, and neither
      begins nor ends with whitespace; empty exactly when `s` is blank. */
  function Trim(s: string): (r: string)
    ensures LeadingBlanks(s) + |r| <= |s|
    ensures r == s[LeadingBlanks(s)..LeadingBlanks(s) + |r|]
    ensures IsBlank(s[LeadingBlanks(s) + |r|..])
    ensures |r| > 0 ==> !IsWhitespace(r[0]) && !IsWhitespace(r[|r| - 1])
    ensures r == [] <==> IsBlank(s)
  {
    var a := LeadingBlanks(s);
    if a == |s| then
      assert s[..a] == s;
      []
    else
      var b := TrailingBlanks(s);
      assert b <= |s| - a - 1;
      assert !IsBlank(s) by {
        assert !IsWhitespace(s[a]);
      }
      s[a..|s| - b]
  }

  /** Trimming twice is trimming once. */
  lemma TrimIdempotent(s: string)
    ensures Trim(Trim(s)) == Trim(s)
  {
    var r := Trim(s);
    if |r| > 0 {
      assert LeadingBlanks(r) == 0;
      assert TrailingBlanks(r) == 0;
    }
  }

  // ---------------------------------------------------------------------
  // Case-insensitive containment (`localizedCaseInsensitiveContains`)
  // ---------------------------------------------------------------------

  /** ASCII lower-casing of one character. */
  function ToLower(c: char): char
  {
    if 'A' <= c <= 'Z' then (c as int + 32) as char else c
  }

  /** ASCII lower-casing of a string, character by character. */
  function Lower(s: string): (r: string)
    ensures |r| == |s|
    ensures forall i :: 0 <= i < |s| ==> r[i] == ToLower(s[i])
  {
    seq(|s|, i requires 0 <= i < |s| => ToLower(s[i]))
  }

  /** `q` occurs in `s` starting at index `i`. */
  predicate OccursAt(s: string, q: string, i: int)
  {
    0 <= i && i + |q| <= |s| && s[i..i + |q|] == q
  }

  /** `q` occurs somewhere in `s`. */
  function Contains(s: string, q: string): (b: bool)
    ensures b <==> exists i :: OccursAt(s, q, i)
    decreases |s|
  {
    if |q| > |s| then false
    else if s[..|q|] == q then
      assert OccursAt(s, q, 0);
      true
    else
      var b := Contains(s[1..], q);
      forall i | OccursAt(s[1..], q, i) {
        OccursInTail(s, q, i);
      }
      forall i | OccursAt(s, q, i) && i > 0 {
        OccursInTail(s, q, i - 1);
      }
      b
  }

  /** An occurrence in `s[1..]` at `i` is one in `s` at `i + 1`. */
  lemma OccursInTail(s: string, q: string, i: int)
    requires |s| > 0 && 0 <= i
    ensures OccursAt(s[1..], q, i) <==> OccursAt(s, q, i + 1)
  {
    if i + |q| <= |s[1..]| {
      assert s[1..][i..i + |q|] == s[i + 1..i + 1 + |q|];
    }
  }

  /** Case-insensitive containment: `q` is non-empty and occurs in `s` once
      both are lower-cased. Like Foundation's `range(of:)`, on which
      `localizedCaseInsensitiveContains` rests, an empty query is found
      nowhere. */
  function ContainsIgnoringCase(s: string, q: string): (b: bool)
    ensures b <==> q != [] && exists i :: OccursAt(Lower(s), Lower(q), i)
    ensures q == [] ==> !b
  {
    q != [] && Contains(Lower(s), Lower(q))
  }

  /** Lower-casing is idempotent, so a query matches exactly when its
      lower-cased form does. */
  lemma {:induction false} ContainsIgnoresQueryCase(s: string, q: string)
    ensures ContainsIgnoringCase(s, q) <==> ContainsIgnoringCase(s, Lower(q))
  {
    assert Lower(Lower(q)) == Lower(q);
  }

  // ---------------------------------------------------------------------
  // Decimal rendering (`"\(n)"` for an `Int`)
  // ---------------------------------------------------------------------

  predicate IsDigit(c: char)
  {
    '0' <= c <= '9'
  }

  predicate IsDigits(s: string)
  {
    forall i :: 0 <= i < |s| ==> IsDigit(s[i])
  }

  /** A rendered `Int`: digits, optionally after one minus sign. */
  predicate IsNumeral(s: string)
  {
    if |s| > 0 && s[0] == '-' then |s| > 1 && IsDigits(s[1..])
    else |s| > 0 && IsDigits(s)
  }

  function DigitChar(d: nat): (c: char)
    requires d < 10
    ensures IsDigit(c) && c as int - '0' as int == d
  {
    ('0' as int + d) as char
  }

  /** The value of a string of decimal digits. */
  function DigitsValue(s: string): nat
    requires IsDigits(s)
  {
    if |s| == 0 then 0
    else DigitsValue(s[..|s| - 1]) * 10 + (s[|s| - 1] as int - '0' as int)
  }

  /** The decimal digits of `n`, most significant first, without leading
      zeros. */
  function NatToString(n: nat): (s: string)
    ensures |s| > 0 && IsDigits(s)
    ensures s[0] == '0' <==> n == 0
    ensures s[0] == '0' ==> s == "0"
    decreases n
  {
    if n < 10 then [DigitChar(n)] else NatToString(n / 10) + [DigitChar(n % 10)]
  }

  /** Reading back the digits of `n` gives `n`. */
  lemma {:induction false} NatToStringRoundTrip(n: nat)
    ensures DigitsValue(NatToString(n)) == n
  {
    if n >= 10 {
      NatToStringRoundTrip(n / 10);
      var s := NatToString(n);
      assert s[..|s| - 1] == NatToString(n / 10);
    }
  }

  /** A numeral as Swift writes one: no leading zero, except for "0"
      itself, and no "-0". */
  predicate IsCanonicalNumeral(s: string)
  {
    && IsNumeral(s)
    && (s[0] == '0' ==> s == "0")
    && (s[0] == '-' ==> s[1] != '0')
  }

  /** Swift's rendering of an `Int` in string interpolation: a canonical
      numeral, with a minus sign exactly for a negative number, that parses
      back to the number. */
  function IntToString(i: int): (s: string)
    ensures IsCanonicalNumeral(s)
    ensures s[0] == '-' <==> i < 0
    ensures ParseInt(s) == i
  {
    if i < 0 then
      NatToStringRoundTrip(-i);
      var s := "-" + NatToString(-i);
      assert s[1..] == NatToString(-i);
      s
    else
      NatToStringRoundTrip(i);
      NatToString(i)
  }

  /** The value of a rendered `Int`. */
  function ParseInt(s: string): int
    requires IsNumeral(s)
  {
    var v: int := if s[0] == '-' then -(DigitsValue(s[1..]) as int) else DigitsValue(s) as int;
    v
  }

  /** A digit string that does not start with '0' has a positive value. */
  lemma {:induction false} LeadingDigitPositive(s: string)
    requires |s| > 0 && IsDigits(s) && s[0] != '0'
    ensures DigitsValue(s) > 0
  {
    if |s| > 1 {
      LeadingDigitPositive(s[..|s| - 1]);
    }
  }

  /** Rendering the value of a digit string without a leading zero gives
      the string back. */
  lemma {:induction false} DigitsRoundTrip(s: string)
    requires |s| > 0 && IsDigits(s) && (s[0] == '0' ==> s == "0")
    ensures NatToString(DigitsValue(s)) == s
  {
    var v := DigitsValue(s);
    if |s| > 1 {
      var p := s[..|s| - 1];
      LeadingDigitPositive(p);
      DigitsRoundTrip(p);
      assert v / 10 == DigitsValue(p) && v % 10 == s[|s| - 1] as int - '0' as int;
      assert s == p + [s[|s| - 1]];
    }
  }

  /** Every canonical numeral is the rendering of its value, so the
      rendering is the only canonical numeral for a number. */
  lemma NumeralRoundTrip(s: string)
    requires IsCanonicalNumeral(s)
    ensures IntToString(ParseInt(s)) == s
  {
    if s[0] == '-' {
      DigitsRoundTrip(s[1..]);
      LeadingDigitPositive(s[1..]);
      assert s == "-" + s[1..];
    } else {
      DigitsRoundTrip(s);
    }
  }
}

=== FILE: wrappers.dfy ===
/** Failure-carrying datatypes shared by the whole model. */
module Wrappers {

  /** An optional value: Swift's `T?`. */
  datatype Option<+T> = None | Some(value: T)

  /** Either a value or the error a throwing Swift function raised. */
  datatype Result<+T, +E> = Ok(value: T) | Err(error: E)
}
